=== FILE: README.md ===
# InstaBids agents in Dafny

A model of the core of the InstaBids multi-agent marketplace. Homeowners post
projects, contractors bid on them, and a messaging agent decides which messages
between the two sides get through. The model covers:

- **Messaging agent**:
  - the message gate, which allows or blocks a message from the project's bid state;
  - forwarding of allowed messages to the recipient's endpoint;
  - the endpoint lookup (environment variable, then two fixed fallbacks);
  - the broadcast of a message to every bidder on a project.
- **Contractor agent**: bid submission (the bid record and the insert's result) and the message that triggers it.
- **Homeowner agent**:
  - project creation: the placeholder input-flow choice and the chat and form fallbacks that gather details;
  - the project and photo records saved and the id returned;
  - the task that asks the bid card agent for a card.
- **Bid card agent**: the card built from a stored project and its photos.
- **Matching agent**: the choice of match type and the placeholder finders.
- **Agent factory**: the per-user agent cache. Calls are modelled one after another.

## Modelling choices

- Python values are the `Values.Value` datatype: None, bool, int, str, list, dict, and an opaque `Other` for floats and timestamps.
- Truthiness, `dict.get`, the "drop None values" comprehension, `str()` and the substring test are written out as functions in `Values`.
- Upper- and lower-casing cover ASCII only.
- The outside world is passed in as parameters:
  - the database is a per-agent datatype of the responses it gives; an exception is a `Failed` or `*Raised` constructor;
  - environment variables are a map;
  - the A2A transport is a function from the send made to its outcome;
  - every `uuid4()` is a string parameter.
- Each agent operation is a pure function or method. It returns a datatype saying how the call ended: which early return, which exception, or which records and sends were produced.
- Where the source's own docstrings and TODO comments describe behaviour the code lacks (src/agents/messaging/agent.py:1-7, 123-131, 242-246), the code is followed:
  - the gate applies no redaction or pseudonymity, so an allowed message is forwarded with its content unchanged;
  - a broadcast reaches every contractor with any bid on the project, whatever its status;
  - the follow-up rule never fires, because prior contact is fixed to false;
  - roles come from the substring "contractor-agent" in the agent id;
  - the contractor's agent id is used as its account id in the bids query.

## Model

| member | source | states |
|---|---|---|
| `Messaging.ShouldAllow` | src/agents/messaging/agent.py:171-261 | The gate always returns a verdict. Its reason starts with "Allowed:" exactly when it allows and with "Blocked:" exactly when it denies. |
| `Messaging.FailsClosed` | src/agents/messaging/agent.py:175-214 | The gate fails closed, in this order: no project id blocks first, then no database client. For a homeowner/contractor pair, an empty homeowner id blocks as unmapped roles, then a failing bids query blocks as a permission-check error. |
| `Messaging.SameRoleDenied` | src/agents/messaging/agent.py:185-210 | Two contractors, or two non-contractors, are blocked with the reason for their role, whatever bids exist. |
| `Messaging.PairStatusesReflectRows` | src/agents/messaging/agent.py:219-226 | The statuses the bids query returns for a project/contractor pair contain a status exactly when some matching row has it. They are empty exactly when the pair has no bid. |
| `Messaging.VerdictDependsOnlyOnPairStatuses` | src/agents/messaging/agent.py:217-226 | Two bids tables that give the pair the same statuses give the same verdict. Rows of other pairs do not matter. |
| `Messaging.AcceptedBidAllows` | src/agents/messaging/agent.py:225-230 | An accepted bid for the pair allows with "Bid accepted", whatever other bids exist and whichever side sends. |
| `Messaging.PendingBidAllows` | src/agents/messaging/agent.py:226-235 | With no accepted bid, a pending bid allows with the redaction-pending reason. |
| `Messaging.NoQualifyingBid` | src/agents/messaging/agent.py:237-257 | With no accepted or pending bid, a contractor's message on a pair with no bids is allowed as initial contact. Every other message is blocked with the default reason. |
| `Messaging.FollowUpUnreachable` | src/agents/messaging/agent.py:243-246 | The follow-up verdict is never produced. |
| `Messaging.AllowedExactlyWhen` | src/agents/messaging/agent.py:171-261 | Complete characterisation of when a message is allowed: a project id and a working client are present, the pair is mixed with a non-empty homeowner id, and either an accepted or pending bid exists or a contractor sends with no bid at all. |
| `Messaging.EnvVarName` | src/agents/messaging/agent.py:319 | The variable name is the agent id upper-cased with hyphens turned into underscores, followed by "_ENDPOINT". It never contains a hyphen. |
| `Messaging.RecipientInfo` | src/agents/messaging/agent.py:310-331 | A non-empty environment endpoint wins, under the name "Agent <id>". Otherwise only the two example agents resolve, each to its fixed local URL and named "Homeowner Agent" or "Contractor Agent". The id is always the one asked for. |
| `Messaging.HandleMessage` | src/agents/messaging/agent.py:90-168 | Without a client nothing happens. With one, the outcome follows the gate. A denied message is blocked with exactly the gate's "Blocked:" reason. An allowed message whose recipient does not resolve is dropped. Otherwise it is forwarded once, to exactly the recipient endpoint that lookup resolves, carrying the message's task, role, content, sender, session, artifacts and metadata unchanged. |
| `Messaging.ProjectBidders` | src/agents/messaging/agent.py:274-279 | The contractor ids read are exactly those of the project's bid rows. |
| `Messaging.Distinct` | src/agents/messaging/agent.py:279 | De-duplication keeps exactly the same ids, each once. |
| `Messaging.BroadcastAttempt` | src/agents/messaging/agent.py:287-304 | A bidder gets a send exactly when its derived agent id resolves. That id is "contractor-agent-" followed by the first eight characters of the bidder id. The send goes to the resolved endpoint with task id "broadcast_<project>", role "SYSTEM", the broadcast content, the original sender and metadata `{broadcast: True, project_id}`. The recorded outcome is the transport's answer to that send. |
| `Messaging.FanOutAttemptsEachOnce` | src/agents/messaging/agent.py:283-304 | Walking distinct recipients makes at most one attempt per recipient. Every recipient with an attempt gets one, whatever earlier sends returned. |
| `Messaging.BroadcastFanOut` | src/agents/messaging/agent.py:283-304 | Over distinct recipients, the broadcast makes exactly one send for each recipient whose agent id resolves, and none for any other. Each send targets the recipient's derived contractor agent and carries the broadcast task id, "SYSTEM" role, content, sender and `{broadcast: True, project_id}` metadata. |
| `Messaging.RunFanOut` | src/agents/messaging/agent.py:283-304 | The loop over recipients performs the fan-out step by step. |
| `Messaging.HandleBroadcast` | src/agents/messaging/agent.py:264-307 | No client, a failing query or no bidders means no sends. Otherwise each distinct bidder whose agent id resolves receives exactly one send, and no one else does. Each send goes to "contractor-agent-" plus the bidder id's first eight characters, with task id "broadcast_<project>", role "SYSTEM", the given content and sender, and metadata `{broadcast: True, project_id}`. Whatever one send returns, the others still happen. |
| `Messaging.HandleCreateTask` | src/agents/messaging/agent.py:69-87 | Only a broadcast request with a truthy project id, content and creator fans out, and only with a working client. Every send goes to a bidder of that project, each bidder at most once, and carries the request's project id, content and creator. Each bidder whose agent id resolves gets a send. Any other task sends nothing. |
| `Messaging.BroadcastTargetsAreContractors` | src/agents/messaging/agent.py:287 | Every derived broadcast agent id is classified as a contractor by the gate. |
| `Messaging.BroadcastFallbackResolves` | src/agents/messaging/agent.py:325-328 | Without an environment entry, the only bidder that resolves is the one whose user id is exactly "001". |
| `Contractor.BidRecord` | src/agents/contractor/agent.py:118-130 | The bid record drops None fields, is always "pending", and always holds "metadata". That entry is None when no non-None entry remains, else the filtered dict. Metadata that is neither None nor a dict raises. |
| `Contractor.SubmitBid` | src/agents/contractor/agent.py:100-146 | The checks run in this order: no client, then missing project id, contractor id or amount. Submission succeeds exactly when the insert returns a first row with an "id". |
| `Contractor.ZeroAmountIsSubmitted` | src/agents/contractor/agent.py:112 | Only a None amount is rejected; an amount of 0 is submitted. |
| `Contractor.EmptyMetadataStoredAsNone` | src/agents/contractor/agent.py:128-130 | None metadata, or metadata of only None values, is stored as None. |
| `Contractor.HandleMessage` | src/agents/contractor/agent.py:86-96 | A bid is submitted exactly when the content is a dict holding "bid_amount". The submission is `submit_bid` with the agent's own id as contractor and the message's amount, project id, description and metadata. |
| `Contractor.SubmittedBidOpensGate` | src/agents/contractor/agent.py:89-96 | A bid stored via a message, with no metadata or dict metadata, succeeds. It makes the messaging gate allow messages on the project in both directions between that contractor and a homeowner. |
| `Homeowner.DescribeFlowSeedsDescription` | src/agents/homeowner/agent.py:103-167 | The initial input is always "describe", so the starting context holds only the task's description. The photo and quote flows are never taken. |
| `Homeowner.GatherDetailsChat` | src/agents/homeowner/agent.py:236-251 | The chat fallback keeps every detail in the context and fills each missing one with its default. It fails exactly when the context's description or location is falsy. |
| `Homeowner.GatherDetailsForm` | src/agents/homeowner/agent.py:264-275 | The form fallback overwrites every gathered detail with its fixed value except the description, which it keeps (or defaults). Other context keys are untouched. |
| `Homeowner.ProjectFields` | src/agents/homeowner/agent.py:286-303 | The project's columns are copied when non-None and dropped when None. Description, category and location are present exactly when the details give them a non-None value. Status is "open", and title and homeowner id have defaults when absent. |
| `Homeowner.ProjectMetadata` | src/agents/homeowner/agent.py:294-306 | Metadata keeps exactly the non-None project type, timeline and group-bidding choice, which defaults to False when absent. It is None exactly when all three are None. |
| `Homeowner.ProjectRecord` | src/agents/homeowner/agent.py:286-306 | The inserted project record always has status "open" and the cleaned metadata. Title and homeowner id have defaults when absent, and every other column is copied exactly when the details give it a non-None value. |
| `Homeowner.StringPaths` | src/agents/homeowner/agent.py:326-329 | Only string photo paths are kept. A single path is kept exactly when it is a string, and a list of strings is kept whole. |
| `Homeowner.StringPathsAppend` | src/agents/homeowner/agent.py:326-329 | Filtering a concatenation filters each part and keeps them in order. With the single-path case, this fixes the kept paths, their order and their multiplicity. |
| `Homeowner.PhotoRows` | src/agents/homeowner/agent.py:326-329 | One photo row per string path, in order, each tagged with the project id. |
| `Homeowner.SaveProject` | src/agents/homeowner/agent.py:277-344 | No client means no insert. With a client, a project insert without a first id returns None. Otherwise the first row's id is returned unless the photo step raises. Photo rows are inserted exactly when the id and `photo_paths` are truthy and some path is a string, and they are one row per string path carrying that id. |
| `Homeowner.PhotoResponseDoesNotChangeId` | src/agents/homeowner/agent.py:330-339 | Whatever rows the photo insert returns, even none, the returned project id is the same. |
| `Homeowner.PhotoInsertFailureLosesId` | src/agents/homeowner/agent.py:331-344 | A photo insert that raises makes the save return None, although the project row was inserted. |
| `Homeowner.TriggerBidCard` | src/agents/homeowner/agent.py:347-373 | A bid card task is created exactly when the configured endpoint is non-empty. It targets the configured agent id and endpoint, under the name "Bid Card Agent". Its description names the project, and its metadata holds exactly the project id, the original task id, and the details' title and category. |
| `Homeowner.HandleCreateTask` | src/agents/homeowner/agent.py:94-156 | The details are the chat fallback applied to the description-seeded context. A save of exactly those details follows every successful gathering. The bid card is triggered exactly for a truthy saved id, with that id, the task id and the details. |
| `Homeowner.ChatKeepsSeededDescription` | src/agents/homeowner/agent.py:236-250 | Seeded with a description, the chat fallback keeps it and supplies the simulated location and the group-bidding default. |
| `Homeowner.SavedProjectCarriesTaskDescription` | src/agents/homeowner/agent.py:121-144 | End to end, the saved project carries the task's description, the simulated location and group bidding enabled. |
| `Homeowner.TriggeredRunNamesProject` | src/agents/homeowner/agent.py:121-148 | A run that triggers the bid card has saved a truthy id, and the trigger's metadata names that id. The saved details hold the task's description. |
| `BidCard.MetadataAsWritten` | src/agents/bid_card/agent.py:112-114 | As written, missing metadata reads as empty and dict metadata reads as its entries. Any other metadata, None included, raises. |
| `BidCard.Metadata` | src/agents/bid_card/agent.py:112-114 | Corrected reading: None metadata reads as empty. It agrees with the code wherever the code does not raise. |
| `BidCard.CardContent` | src/agents/bid_card/agent.py:106-123 | The card has only card keys and no None values. It copies the project's columns and metadata under their names, has one photo entry per photo row in order, and always has photos and a `created_at` string. |
| `BidCard.HandleCreateTaskAsWritten` | src/agents/bid_card/agent.py:65-153 | As written: no client, a missing project id and a missing project each end the task. A card is built exactly when both fetches succeed and the metadata read does not raise. It holds the card content for the project, its photos and its metadata. |
| `BidCard.HandleCreateTask` | src/agents/bid_card/agent.py:65-153 | No client, a missing project id and a missing project each end the task. Otherwise a card is built exactly when both fetches succeed. It agrees with the code as written wherever that builds a card. |
| `BidCard.CardOmitsHomeowner` | src/agents/bid_card/agent.py:120 | The card never carries the homeowner's id. |
| `BidCard.StoredProjectReadsBack` | src/agents/bid_card/agent.py:97-114 | A project saved by the homeowner agent reads back with its columns and metadata values. |
| `BidCard.CardShowsSavedDetails` | src/agents/bid_card/agent.py:106-123 | Round trip: the card built for a project the homeowner agent saved shows the saved details under the same names. |
| `BidCard.StoredCardShowsIdAndDescription` | src/agents/bid_card/agent.py:106-123 | The card for a project stored with a truthy id carries that id and the saved description. |
| `BidCard.TriggeredTaskYieldsCard` | src/agents/bid_card/agent.py:79-123 | Hand-off: the task the homeowner agent creates names the saved project. Once that project is stored, the card agent builds its card with the saved id and the homeowner task's description. |
| `BidCard.AsWrittenFailsOnSavedProjectWithoutMetadata` | src/agents/bid_card/agent.py:112 | The code as written fails on a project saved with None metadata. The corrected reading builds its card. |
| `Matching.MatchType` | src/agents/matching/agent.py:78-88 | A truthy `match_type` wins. Otherwise the lower-cased description decides, and "find contractors" is checked before "find projects". |
| `Matching.FindContractorsForProject` | src/agents/matching/agent.py:138-149 | The placeholder returns exactly "contractor-agent-001", "contractor-agent-002" and "contractor-agent-003", whatever the project. |
| `Matching.PlaceholderContractorsAreContractors` | src/agents/matching/agent.py:149 | The messaging gate classifies each placeholder contractor as a contractor. |
| `Matching.FindProjectsForContractor` | src/agents/matching/agent.py:151-161 | The placeholder returns five ids, each "proj_" followed by a fresh uuid, and distinct when the uuids are. |
| `Matching.HandleCreateTask` | src/agents/matching/agent.py:65-113 | Contractors are found exactly for a contractors match with a truthy project id, and projects exactly for a projects match with a truthy contractor id. Each result is the matching finder's answer. A missing id stops with its own outcome, and an unknown match type yields no results. |
| `Matching.MatchedContractorsAreContractors` | src/agents/matching/agent.py:92-99 | Every contractor a match returns is classified as a contractor by the messaging gate. |
| `Matching.ExplicitTypeIgnoresDescription` | src/agents/matching/agent.py:78-80 | With a truthy `match_type` in the metadata, the description has no effect on the outcome. |
| `Factory.AgentId` | src/agents/factory.py:84-92 | Only "homeowner" and "contractor" have agents, with ids "{type}-agent-{user}". |
| `Factory.GetWith` | src/agents/factory.py:45-119 | A cache hit returns the cached agent without a query. A miss creates and caches an agent exactly when the user is found, memory loads, the type is known and the constructor accepts the keywords. A created agent is named "<Type> Agent for <email>". |
| `Factory.GetUserAgentAsWritten` | src/agents/factory.py:104-109 | As written, a cache hit still returns the cached agent. |
| `Factory.AsWrittenNeverCreates` | src/agents/factory.py:104-119 | As written, a cache miss never returns an agent and never fills the cache. |
| `Factory.GetUserAgent` | src/agents/factory.py:25-119 | With constructors that take the memory service, a miss creates an agent exactly when the user row exists, memory loads, the type is known and no extra keywords are passed. The agent's id and endpoint follow from the type and user, its name is "<Type> Agent for <email>", and only its own cache entry changes. |
| `Factory.SecondCallHitsCache` | src/agents/factory.py:45-50 | A second call for the same user and type returns the first call's agent without touching the database. |
| `Factory.OtherEntriesUnchanged` | src/agents/factory.py:112 | A call never changes the entry under any other cache key. Distinct user/type pairs can share a key (see `Factory.CacheKeyCollision`). |
| `Factory.SharedKeySharesAgent` | src/agents/factory.py:45-50 | Two requests whose "user:type" keys coincide share one agent. When the first creates one (user row found, memory loads, known type, no extra keywords), the second returns it from the cache without a query. |
| `Factory.CacheKeyCollision` | src/agents/factory.py:45-50 | The key does not separate user from type. After user "a:b" gets a contractor agent, a request for user "a" with the unknown type "b:contractor" returns that same agent, because the cache is read before the type is checked. |
| `Factory.ContractorAgentIsContractor` | src/agents/factory.py:87-89 | Contractor agents the factory makes are classified as contractors by the messaging gate. |
| `Factory.HomeownerAgentRole` | src/agents/factory.py:84-86 | A homeowner agent is misclassified as a contractor exactly when its user id contains "contractor-agent". |

## Left out

- Logging, `print` placeholders, and the "TODO" task-status updates: they have no effect on the modelled results.
- The agents' constructors, which read the database credentials from the environment: whether a client exists is an input.
- `get_agent_info` is not modelled.
- The `handle_message` of the homeowner, bid card and matching agents and the contractor's `handle_create_task` are not modelled: they only log and print.
- Concurrency and memory management: `asyncio` and the factory's creation locks, and the weak-value cache evicting instances no longer referenced elsewhere. Factory calls are modelled one at a time with a plain map.
- `PersistentMemory` is not part of this model: whether its `load()` succeeds is a boolean input.
- Keyword arguments passed to the factory are modelled by their names; their values are never inspected.
- The A2A client's `create_task` in the bid card trigger: the model returns the task it would create. The client's answer is only logged.
- Artifact registration and the task result in the bid card agent: only the artifact id is modelled.
- `Values.PyStr`: `str()` of lists and dicts is a fixed placeholder, because the model's dicts keep no insertion order. Floats and timestamps are `Other` values carrying their text.
- `Values.Upper`, `Values.Lower`, `Values.Capitalize`: ASCII only; Unicode case mapping is not modelled.
- `Homeowner.SaveProject`: a dict as `photo_paths` is treated as not iterable (the save returns None). Python would iterate the dict's keys.
- `Messaging.Distinct`: Python's `set` iteration order is unspecified. The model uses first-occurrence order, and no contract depends on the order.
- `Messaging.HandleMessage`: the content-redaction and pseudonymity steps are placeholders in the code, so content is forwarded unchanged.
- `Messaging.ForPair`: a bids row matches only when its project id is a string equal to the requested one. An integer project id, which the database would compare as text, is treated as having no bids, so the gate falls to its no-bid verdicts.
- `Factory.CacheKey`: the key is the source's "user:type" string, so the model keeps its collisions between user ids and types that contain ":". It does not promise one cache entry per user/type pair.
- A database response whose `data` is None is read as an empty list of rows.
- The context files `src/instabids/agents/factory.py`, `src/instabids/agents/contractor.py` and the ADK `setup.py` are not part of this model.

## Findings

| source | as written | input that shows it | evidently intended | confidence | as-written member | corrected member |
|---|---|---|---|---|---|---|
| src/agents/factory.py:104-109 | The factory passes `memory_service=` to `HomeownerAgent` and `ContractorAgent`, whose constructors take only `agent_info` and `supabase_client`. | Any cache miss for a user found in the database with type "homeowner" or "contractor": the constructor raises `TypeError`, the handler returns None, and nothing is cached. | The constructors accept the memory service, so the agent is created and cached. | medium, not executed | `Factory.AsWrittenNeverCreates` | `Factory.GetUserAgent` |
| src/agents/bid_card/agent.py:112-114 | `project_data.get("metadata", {}).get(...)` treats only a missing "metadata" as empty. | A project saved by the homeowner agent with no non-None metadata, e.g. details `{"description": "Fix the roof", "allow_group_bidding": None}`: src/agents/homeowner/agent.py:306 stores `metadata = None`, `.get` on None raises, and no card is built. | None metadata reads as empty metadata, like a missing entry. | medium, not executed | `BidCard.AsWrittenFailsOnSavedProjectWithoutMetadata` | `BidCard.HandleCreateTask` |

=== FILE: bid_card.dfy ===
/** The bid card agent: turns a stored project and its photos into the
    "Bid Card" content other agents see, leaving out the homeowner's
    identity. */
module BidCard {
  import opened Values
  import opened Protocol
  import Homeowner

  /** The `maybe_single` project fetch: an exception, or the row found (if any). */
  datatype Fetch = FetchRaised | Fetched(row: Option<Record>)

  /** The database as the bid card agent sees it: no client, or a client
      whose project fetch and photo fetch answer as given. */
  datatype Db = NoClient | Client(project: Fetch, photos: Response)

  /** What one `handle_create_task` call ended with. */
  datatype Outcome =
    | NoDatabaseClient
    | MissingProjectId
    | NotFound
    | Crashed                                   // an exception inside the try block
    | Card(content: Record, artifactId: string) // the structured card and its placeholder artifact id

  const CardKeys: set<string> := {
    "project_id", "title", "description", "category", "location_description",
    "project_type", "timeline", "allow_group_bidding", "photos", "created_at"}

  /** The project columns the card copies under their own names. */
  const CopiedColumns: set<string> := {"title", "description", "category", "location_description"}

  /** `project_data.get("metadata", {})`, as written, read through `.get`:
      a missing entry reads as the empty dict; any value that is not a dict,
      None included, raises (None here). */
  function MetadataAsWritten(project: Record): (m: Option<Record>)
    ensures m.None? <==> "metadata" in project && !project["metadata"].Dict?
    ensures "metadata" !in project ==> m == Some(map[])
    ensures "metadata" in project && project["metadata"].Dict? ==> m == Some(project["metadata"].fields)
  {
    match Get(project, "metadata", Dict(map[]))
    case Dict(fields) => Some(fields)
    case _ => None
  }

  /** The metadata read as evidently intended: a None entry, which the
      homeowner agent stores for a project without metadata, reads like a
      missing one. Wherever the code as written does not raise, both agree. */
  function Metadata(project: Record): (m: Option<Record>)
    ensures m.None? <==> "metadata" in project && !project["metadata"].Dict? && !project["metadata"].Null?
    ensures MetadataAsWritten(project).Some? ==> m == MetadataAsWritten(project)
    ensures "metadata" in project && project["metadata"].Null? ==> m == Some(map[])
  {
    if "metadata" in project && project["metadata"].Null? then Some(map[]) else MetadataAsWritten(project)
  }

  /** One photo entry of the card: path and caption, None values kept. */
  function PhotoEntry(photo: Record): Value {
    Dict(map["path" := Get(photo, "storage_path", Null), "caption" := Get(photo, "caption", Null)])
  }

  /** The value the card gives key `k` before None values are dropped:
      the project's id and copied columns, the metadata's entries, the photo
      entries, and `str()` of the creation time. */
  function CardValue(k: string, project: Record, photos: seq<Record>, metadata: Record): Value {
    if k == "project_id" then Get(project, "id", Null)
    else if k in CopiedColumns then Get(project, k, Null)
    else if k in Homeowner.MetadataKeys then Get(metadata, k, Null)
    else if k == "photos" then List(seq(|photos|, i requires 0 <= i < |photos| => PhotoEntry(photos[i])))
    else Str(PyStr(Get(project, "created_at", Null)))
  }

  /** A copied column's card value is the project's column. */
  lemma CardValueOfColumn(k: string, project: Record, photos: seq<Record>, metadata: Record)
    requires k in CopiedColumns
    ensures k in CardKeys && CardValue(k, project, photos, metadata) == Get(project, k, Null)
  {
  }

  /** A metadata key's card value is the metadata's entry. */
  lemma CardValueOfMetadata(k: string, project: Record, photos: seq<Record>, metadata: Record)
    requires k in Homeowner.MetadataKeys
    ensures k in CardKeys && CardValue(k, project, photos, metadata) == Get(metadata, k, Null)
  {
  }

  /** The id, the photo entries in row order, and the creation time's text. */
  lemma CardValueOfFixedKeys(project: Record, photos: seq<Record>, metadata: Record)
    ensures "project_id" in CardKeys && CardValue("project_id", project, photos, metadata) == Get(project, "id", Null)
    ensures "photos" in CardKeys && CardValue("photos", project, photos, metadata).List?
    ensures |CardValue("photos", project, photos, metadata).items| == |photos|
    ensures forall i | 0 <= i < |photos| :: CardValue("photos", project, photos, metadata).items[i] == PhotoEntry(photos[i])
    ensures "created_at" in CardKeys
    ensures CardValue("created_at", project, photos, metadata) == Str(PyStr(Get(project, "created_at", Null)))
  {
  }

  /** The card content, None values dropped, for a project row, its photo
      rows and its metadata dict. */
  function CardContent(project: Record, photos: seq<Record>, metadata: Record): (c: Record)
    ensures c.Keys <= CardKeys
    ensures forall k | k in c :: !c[k].Null?
    ensures forall k | k in CopiedColumns ::
      (k in c <==> !Get(project, k, Null).Null?) && (k in c ==> c[k] == project[k])
    ensures "project_id" in c <==> !Get(project, "id", Null).Null?
    ensures "project_id" in c ==> c["project_id"] == project["id"]
    ensures forall k | k in Homeowner.MetadataKeys ::
      (k in c <==> !Get(metadata, k, Null).Null?) && (k in c ==> c[k] == metadata[k])
    ensures "photos" in c && c["photos"].List? && |c["photos"].items| == |photos|
    ensures forall i | 0 <= i < |photos| :: c["photos"].items[i] == PhotoEntry(photos[i])
    ensures "created_at" in c && c["created_at"] == Str(PyStr(Get(project, "created_at", Null)))
  {
    var raw := map k | k in CardKeys :: CardValue(k, project, photos, metadata);
    var c := DropNone(raw);
    assert forall k | k in CopiedColumns ::
      (k in c <==> !Get(project, k, Null).Null?) && (k in c ==> c[k] == project[k]) by {
      forall k | k in CopiedColumns
        ensures (k in c <==> !Get(project, k, Null).Null?) && (k in c ==> c[k] == project[k])
      {
        CardValueOfColumn(k, project, photos, metadata);
      }
    }
    assert forall k | k in Homeowner.MetadataKeys ::
      (k in c <==> !Get(metadata, k, Null).Null?) && (k in c ==> c[k] == metadata[k]) by {
      forall k | k in Homeowner.MetadataKeys
        ensures (k in c <==> !Get(metadata, k, Null).Null?) && (k in c ==> c[k] == metadata[k])
      {
        CardValueOfMetadata(k, project, photos, metadata);
      }
    }
    CardValueOfFixedKeys(project, photos, metadata);
    c
  }

  /** The shared steps of `handle_create_task`, with the metadata reading
      passed in: `read` is either the code as written or the corrected one. */
  function Handle(task: Task, db: Db, artifactUuid: string, read: Record -> Option<Record>): Outcome {
    if db.NoClient? then NoDatabaseClient
    else
      var projectId := MetaGet(task.metadata, "project_id");
      if !Truthy(projectId) then MissingProjectId
      else
        match db.project
        case FetchRaised => Crashed
        case Fetched(row) =>
          if row.None? || |row.value| == 0 then NotFound
          else
            match db.photos
            case Failed => Crashed
            case Rows(photos) =>
              match read(row.value)
              case None => Crashed
              case Some(metadata) => Card(CardContent(row.value, photos, metadata), "art_" + artifactUuid)
  }

  /** `handle_create_task` as written. */
  function HandleCreateTaskAsWritten(task: Task, db: Db, artifactUuid: string): (o: Outcome)
    ensures db.NoClient? <==> o == NoDatabaseClient
    ensures o == MissingProjectId <==> db.Client? && !Truthy(MetaGet(task.metadata, "project_id"))
    ensures o == NotFound <==>
      && db.Client? && Truthy(MetaGet(task.metadata, "project_id"))
      && db.project.Fetched? && (db.project.row.None? || |db.project.row.value| == 0)
    ensures o.Card? <==>
      && db.Client? && Truthy(MetaGet(task.metadata, "project_id"))
      && db.project.Fetched? && db.project.row.Some? && |db.project.row.value| > 0
      && db.photos.Rows? && MetadataAsWritten(db.project.row.value).Some?
    ensures o.Card? ==>
      && db.Client? && db.project.Fetched? && db.project.row.Some? && db.photos.Rows?
      && MetadataAsWritten(db.project.row.value).Some?
      && o.content == CardContent(db.project.row.value, db.photos.rows, MetadataAsWritten(db.project.row.value).value)
      && o.artifactId == "art_" + artifactUuid
  {
    Handle(task, db, artifactUuid, MetadataAsWritten)
  }

  /** `handle_create_task`, reading None metadata as missing. `artifactUuid`
      stands for the `uuid4()` of the placeholder artifact id. */
  function HandleCreateTask(task: Task, db: Db, artifactUuid: string): (o: Outcome)
    ensures db.NoClient? <==> o == NoDatabaseClient
    ensures o == MissingProjectId <==> db.Client? && !Truthy(MetaGet(task.metadata, "project_id"))
    ensures o == NotFound <==>
      && db.Client? && Truthy(MetaGet(task.metadata, "project_id"))
      && db.project.Fetched? && (db.project.row.None? || |db.project.row.value| == 0)
    ensures o.Card? ==>
      && db.Client? && db.project.Fetched? && db.project.row.Some? && db.photos.Rows?
      && Metadata(db.project.row.value).Some?
      && o.content == CardContent(db.project.row.value, db.photos.rows, Metadata(db.project.row.value).value)
      && o.artifactId == "art_" + artifactUuid
    ensures o.Card? <==>
      && db.Client? && Truthy(MetaGet(task.metadata, "project_id"))
      && db.project.Fetched? && db.project.row.Some? && |db.project.row.value| > 0
      && db.photos.Rows? && Metadata(db.project.row.value).Some?
    ensures HandleCreateTaskAsWritten(task, db, artifactUuid).Card? ==>
      o == HandleCreateTaskAsWritten(task, db, artifactUuid)
  {
    Handle(task, db, artifactUuid, Metadata)
  }

  /** The card never carries the homeowner's identity. */
  lemma CardOmitsHomeowner(task: Task, db: Db, artifactUuid: string)
    ensures var o := HandleCreateTask(task, db, artifactUuid);
      o.Card? ==> "homeowner_id" !in o.content
  {
  }

  /** A stored project row: the record the homeowner agent inserts, plus the
      columns the database adds. */
  function StoredProject(details: Record, freshUuid: string, id: Value, createdAt: Value): Record {
    Homeowner.ProjectRecord(details, freshUuid)["id" := id]["created_at" := createdAt]
  }

  /** What the card agent reads back from a stored project row. */
  lemma StoredProjectReadsBack(details: Record, freshUuid: string, id: Value, createdAt: Value)
    ensures var row := StoredProject(details, freshUuid, id, createdAt);
      && |row| > 0
      && Metadata(row).Some?
      && (forall k | k in CopiedColumns && k in details && !details[k].Null? ::
            k in row && row[k] == details[k])
      && (forall k | k in Homeowner.MetadataKeys && k in details && !details[k].Null? ::
            k in Metadata(row).value && Metadata(row).value[k] == details[k])
  {
    var row := StoredProject(details, freshUuid, id, createdAt);
    var record := Homeowner.ProjectRecord(details, freshUuid);
    assert "id" in row.Keys;
    assert row["metadata"] == Homeowner.ProjectMetadata(details);
    forall k | k in CopiedColumns && k in details && !details[k].Null?
      ensures k in row && row[k] == details[k]
    {
      assert k in Homeowner.ProjectKeys - {"status", "metadata"};
      assert row[k] == record[k];
    }
  }

  /** Round trip from the homeowner's save to the card: the card shows the
      details the homeowner agent stored, under the same names. */
  lemma CardShowsSavedDetails(details: Record, freshUuid: string, id: Value, createdAt: Value,
                              photos: seq<Record>, task: Task, artifactUuid: string)
    requires Truthy(MetaGet(task.metadata, "project_id"))
    ensures var row := StoredProject(details, freshUuid, id, createdAt);
      var o := HandleCreateTask(task, Client(Fetched(Some(row)), Rows(photos)), artifactUuid);
      && o.Card?
      && (forall k | k in CopiedColumns && k in details && !details[k].Null? ::
            k in o.content && o.content[k] == details[k])
      && (forall k | k in Homeowner.MetadataKeys && k in details && !details[k].Null? ::
            k in o.content && o.content[k] == details[k])
  {
    var row := StoredProject(details, freshUuid, id, createdAt);
    StoredProjectReadsBack(details, freshUuid, id, createdAt);
    var o := HandleCreateTask(task, Client(Fetched(Some(row)), Rows(photos)), artifactUuid);
    assert o.content == CardContent(row, photos, Metadata(row).value);
  }

  /** The card for a stored project carries the project's id, and its
      description when the details gave one. */
  lemma StoredCardShowsIdAndDescription(details: Record, freshUuid: string, id: Value, createdAt: Value,
                                        photos: seq<Record>, task: Task, artifactUuid: string)
    requires Truthy(MetaGet(task.metadata, "project_id")) && Truthy(id)
    requires "description" in details && !details["description"].Null?
    ensures var o := HandleCreateTask(task, Client(Fetched(Some(StoredProject(details, freshUuid, id, createdAt))), Rows(photos)),
                                      artifactUuid);
      && o.Card?
      && "project_id" in o.content && o.content["project_id"] == id
      && "description" in o.content && o.content["description"] == details["description"]
  {
    CardShowsSavedDetails(details, freshUuid, id, createdAt, photos, task, artifactUuid);
    var row := StoredProject(details, freshUuid, id, createdAt);
    assert "id" in row && row["id"] == id;
    assert "description" in CopiedColumns;
  }

  /** Hand-off from the homeowner agent: the task it creates for a saved
      project names that project, and once the row is stored the card agent
      builds a card for it carrying the saved id and the task's
      description. */
  lemma TriggeredTaskYieldsCard(task: Task, hdb: Homeowner.Db, freshUuid: string, env: Env,
                                cardTaskId: string, createdAt: Value, photos: seq<Record>, artifactUuid: string)
    ensures var r := Homeowner.HandleCreateTask(task, hdb, freshUuid, env);
      r.trigger.Some? ==>
        && r.save.Some? && r.details.Some?
        && var cardTask := Task(cardTaskId, r.trigger.value.description, Some(r.trigger.value.metadata), None);
        && MetaGet(cardTask.metadata, "project_id") == r.save.value.projectId
        && var row := StoredProject(r.details.value, freshUuid, r.save.value.projectId, createdAt);
        && var o := HandleCreateTask(cardTask, Client(Fetched(Some(row)), Rows(photos)), artifactUuid);
        && o.Card?
        && "project_id" in o.content && o.content["project_id"] == r.save.value.projectId
        && "description" in o.content && o.content["description"] == Str(task.description)
  {
    var r := Homeowner.HandleCreateTask(task, hdb, freshUuid, env);
    Homeowner.TriggeredRunNamesProject(task, hdb, freshUuid, env);
    if r.trigger.Some? {
      var c := r.trigger.value;
      var cardTask := Task(cardTaskId, c.description, Some(c.metadata), None);
      assert MetaGet(cardTask.metadata, "project_id") == r.save.value.projectId;
      StoredCardShowsIdAndDescription(r.details.value, freshUuid, r.save.value.projectId, createdAt, photos,
                                      cardTask, artifactUuid);
    }
  }

  /** The code as written fails on a project the homeowner agent saved with
      no metadata left (stored as None), and the corrected reading builds
      its card. */
  lemma AsWrittenFailsOnSavedProjectWithoutMetadata(task: Task, photos: seq<Record>, artifactUuid: string)
    requires Truthy(MetaGet(task.metadata, "project_id"))
    ensures var details: Record := map["description" := Str("Fix the roof"), "allow_group_bidding" := Null];
      var row := StoredProject(details, "u", Str("p1"), Null);
      var db := Client(Fetched(Some(row)), Rows(photos));
      && row["metadata"] == Null
      && HandleCreateTaskAsWritten(task, db, artifactUuid) == Crashed
      && HandleCreateTask(task, db, artifactUuid).Card?
  {
    var details: Record := map["description" := Str("Fix the roof"), "allow_group_bidding" := Null];
    var row := StoredProject(details, "u", Str("p1"), Null);
    assert Homeowner.ProjectMetadata(details) == Null;
    assert |row| > 0 by { assert "id" in row.Keys; }
  }
}

=== FILE: contractor.dfy ===
/** The contractor agent's bid submission: the validation of its
    arguments, the bid record it builds (None values dropped), the insert's
    result, and the message shape that triggers a submission. */
module Contractor {
  import opened Values
  import opened Protocol
  import Messaging

  /** The database as `submit_bid` sees it: no client, or a client whose
      insert into the bids table answers `insert`. */
  datatype Db = NoClient | Client(insert: Response)

  /** What one call of `submit_bid` did. */
  datatype Submission =
    | NoDatabaseClient                        // returned False before validating
    | MissingFields                           // returned False, nothing built
    | MetadataRaised                          // metadata without `.items()`: the call raises
    | Inserted(record: Record, success: bool) // the record sent to insert, and the result

  /** `submit_bid` returned True. */
  predicate Succeeded(s: Submission) {
    s.Inserted? && s.success
  }

  const BidKeys: set<string> := {"project_id", "contractor_id", "amount", "description", "status", "metadata"}

  /** The bid record sent for insertion: top-level None values dropped, the
      "metadata" entry put back holding only its non-None entries, or None
      when none remain. There is no record when the metadata argument is
      neither None nor a dict (`.items()` raises). */
  function BidRecord(projectId: Value, contractorId: string, amount: Value, description: Value, metadata: Value)
    : (r: Option<Record>)
    ensures r.Some? <==> metadata.Null? || metadata.Dict?
    ensures r.Some? ==>
      && r.value.Keys <= BidKeys
      && "status" in r.value && r.value["status"] == Str("pending")
      && "contractor_id" in r.value && r.value["contractor_id"] == Str(contractorId)
      && ("project_id" in r.value <==> !projectId.Null?)
      && ("project_id" in r.value ==> r.value["project_id"] == projectId)
      && ("amount" in r.value <==> !amount.Null?)
      && ("amount" in r.value ==> r.value["amount"] == amount)
      && ("description" in r.value <==> !description.Null?)
      && ("description" in r.value ==> r.value["description"] == description)
      && (forall k | k in r.value && k != "metadata" :: !r.value[k].Null?)
      && "metadata" in r.value
      && (r.value["metadata"].Null? || r.value["metadata"].Dict?)
      && (r.value["metadata"].Dict? ==>
            metadata.Dict? && r.value["metadata"].fields == DropNone(metadata.fields)
            && |r.value["metadata"].fields| > 0)
      && (r.value["metadata"].Null? <==> metadata.Null? || |DropNone(metadata.fields)| == 0)
  {
    var data := DropNone(map[
      "project_id" := projectId,
      "contractor_id" := Str(contractorId),
      "amount" := amount,
      "description" := description,
      "status" := Str("pending"),
      "metadata" := metadata]);
    match Get(data, "metadata", Dict(map[]))
    case Dict(fields) =>
      var cleaned := DropNone(fields);
      Some(data["metadata" := if |cleaned| > 0 then Dict(cleaned) else Null])
    case _ => None
  }

  /** `submit_bid`. */
  function SubmitBid(db: Db, projectId: Value, contractorId: string, amount: Value, description: Value,
                     metadata: Value): (s: Submission)
    ensures db.NoClient? <==> s == NoDatabaseClient
    ensures db.Client? ==> (s == MissingFields <==> !Truthy(projectId) || contractorId == "" || amount.Null?)
    ensures s == MetadataRaised <==>
      db.Client? && Truthy(projectId) && contractorId != "" && !amount.Null?
      && !(metadata.Null? || metadata.Dict?)
    ensures s.Inserted? ==> BidRecord(projectId, contractorId, amount, description, metadata) == Some(s.record)
    ensures Succeeded(s) <==>
      && db.Client? && Truthy(projectId) && contractorId != "" && !amount.Null?
      && (metadata.Null? || metadata.Dict?)
      && db.insert.Rows? && |db.insert.rows| > 0 && "id" in db.insert.rows[0]
  {
    if db.NoClient? then NoDatabaseClient
    else if !Truthy(projectId) || contractorId == "" || amount.Null? then MissingFields
    else
      match BidRecord(projectId, contractorId, amount, description, metadata)
      case None => MetadataRaised
      case Some(record) =>
        var success := match db.insert
          case Failed => false
          case Rows(rows) => |rows| > 0 && "id" in rows[0];
        Inserted(record, success)
  }

  /** Only `is None` rejects an amount: a zero amount is submitted. */
  lemma ZeroAmountIsSubmitted(projectId: string, contractorId: string, insert: Response)
    requires projectId != "" && contractorId != ""
    ensures SubmitBid(Client(insert), Str(projectId), contractorId, Int(0), Null, Null).Inserted?
  {
  }

  /** Bid metadata of None, or of only None values, is stored as None under
      a "metadata" key that is always present. */
  lemma EmptyMetadataStoredAsNone(projectId: string, contractorId: string, amount: Value, description: Value,
                                  metadata: Value)
    requires metadata.Null? || (metadata.Dict? && forall k | k in metadata.fields :: metadata.fields[k].Null?)
    ensures var r := BidRecord(Str(projectId), contractorId, amount, description, metadata);
      r.Some? && "metadata" in r.value && r.value["metadata"] == Null
  {
    if metadata.Dict? {
      assert DropNone(metadata.fields) == map[];
    }
  }

  /** `handle_message` submits a bid exactly when the content is a dict
      holding "bid_amount", under the agent's own id as contractor. */
  function HandleMessage(agentId: string, content: Value, db: Db): (s: Option<Submission>)
    ensures s.Some? <==> content.Dict? && "bid_amount" in content.fields
    ensures s.Some? ==>
      s.value == SubmitBid(db, Get(content.fields, "project_id", Null), agentId, content.fields["bid_amount"],
                           Get(content.fields, "bid_description", Null), Get(content.fields, "bid_metadata", Null))
    ensures s.Some? && s.value.Inserted? ==>
      && "contractor_id" in s.value.record && s.value.record["contractor_id"] == Str(agentId)
      && "amount" in s.value.record && s.value.record["amount"] == content.fields["bid_amount"]
      && "project_id" in s.value.record && s.value.record["project_id"] == Get(content.fields, "project_id", Null)
  {
    match content
    case Dict(fields) =>
      if "bid_amount" in fields then
        Some(SubmitBid(db, Get(fields, "project_id", Null), agentId, fields["bid_amount"],
                       Get(fields, "bid_description", Null), Get(fields, "bid_metadata", Null)))
      else None
    case _ => None
  }

  /** A bid stored through a message opens the messaging gate between this
      contractor and a homeowner on that project, whichever of them sends:
      the bid records the contractor's agent id, which is also the id the
      gate queries bids by, and its status is "pending". */
  lemma SubmittedBidOpensGate(agentId: string, projectId: string, fields: Record, insert: Response,
                              bids: seq<Messaging.BidRow>, homeownerId: string)
    requires Messaging.IsContractor(agentId) && !Messaging.IsContractor(homeownerId) && homeownerId != ""
    requires projectId != ""
    requires "bid_amount" in fields && !fields["bid_amount"].Null?
    requires "project_id" in fields && fields["project_id"] == Str(projectId)
    requires "bid_metadata" !in fields || fields["bid_metadata"].Null? || fields["bid_metadata"].Dict?
    requires insert.Rows? && |insert.rows| > 0 && "id" in insert.rows[0]
    ensures var s := HandleMessage(agentId, Dict(fields), Client(insert));
      && s.Some? && Succeeded(s.value)
      && "status" in s.value.record
      && var db := Messaging.Client(bids + [Messaging.BidRow(projectId, agentId, s.value.record["status"])], false);
      && Messaging.ShouldAllow(Str(projectId), agentId, homeownerId, db).allowed
      && Messaging.ShouldAllow(Str(projectId), homeownerId, agentId, db).allowed
  {
    var s := HandleMessage(agentId, Dict(fields), Client(insert));
    var row := Messaging.BidRow(projectId, agentId, s.value.record["status"]);
    var all := bids + [row];
    assert all[|bids|] == row;
    assert Messaging.HasBidWithStatus(all, Str(projectId), agentId, "pending");
    Messaging.AllowedExactlyWhen(Str(projectId), agentId, homeownerId, Messaging.Client(all, false));
    Messaging.AllowedExactlyWhen(Str(projectId), homeownerId, agentId, Messaging.Client(all, false));
  }
}

=== FILE: factory.dfy ===
/** The per-user agent factory: a cache of homeowner and contractor agent
    instances keyed by user and agent type, filled on first request from the
    user's database row. Calls are modelled one after another, each taking
    the cache before the call and giving the cache after it. */
module Factory {
  import opened Values
  import opened Protocol
  import Messaging

  /** A per-user agent instance, as far as the factory configures it. */
  datatype Agent = Agent(kind: string, info: AgentInfo, description: string)

  type Cache = map<string, Agent>

  /** The `maybe_single` user fetch: an exception, or the row found (if any). */
  datatype UserFetch = UserRaised | UserFound(row: Option<Record>)

  /** What one `get_user_agent` call returned, the cache after it, and
      whether it went to the database. */
  datatype Lookup = Lookup(agent: Option<Agent>, cache: Cache, queried: bool)

  const Homeowner := "homeowner"
  const Contractor := "contractor"

  function CacheKey(userId: string, agentType: string): string {
    userId + ":" + agentType
  }

  /** The keywords the agent classes' constructors accept. */
  const ConstructorKeywords: set<string> := {"agent_info", "supabase_client"}

  /** The keywords the factory passes by name, besides the caller's `**kwargs`. */
  const PassedKeywords: set<string> := {"agent_info", "supabase_client", "memory_service"}

  /** A Python call succeeds on keywords when no keyword is passed twice and
      the constructor accepts each of them. */
  predicate CallAccepted(accepted: set<string>, kwargs: set<string>) {
    PassedKeywords * kwargs == {} && PassedKeywords + kwargs <= accepted
  }

  /** The agent id for a user: the role's prefix then the user id. */
  function AgentId(agentType: string, userId: string): (id: Option<string>)
    ensures id.Some? <==> agentType == Homeowner || agentType == Contractor
    ensures id.Some? ==> id.value == agentType + "-agent-" + userId
  {
    if agentType == Homeowner then Some("homeowner-agent-" + userId)
    else if agentType == Contractor then Some("contractor-agent-" + userId)
    else None
  }

  /** The shared steps of `get_user_agent`, for constructors accepting
      `accepted`. `memoryLoads` is whether the user's persistent memory
      loaded without raising. */
  function GetWith(cache: Cache, userId: string, agentType: string, baseEndpoint: string, kwargs: set<string>,
                   user: UserFetch, memoryLoads: bool, accepted: set<string>): (r: Lookup)
    ensures CacheKey(userId, agentType) in cache ==>
      r == Lookup(Some(cache[CacheKey(userId, agentType)]), cache, false)
    ensures CacheKey(userId, agentType) !in cache ==> r.queried
    ensures r.agent.None? ==> r.cache == cache
    ensures r.agent.Some? ==> r.cache == cache[CacheKey(userId, agentType) := r.agent.value]
    ensures CacheKey(userId, agentType) !in cache ==>
      (r.agent.Some? <==>
        && user.UserFound? && user.row.Some? && |user.row.value| > 0
        && memoryLoads
        && (agentType == Homeowner || agentType == Contractor)
        && CallAccepted(accepted, kwargs))
    ensures CacheKey(userId, agentType) !in cache && r.agent.Some? ==>
      && r.agent.value.kind == agentType
      && r.agent.value.info.id == agentType + "-agent-" + userId
      && r.agent.value.info.endpoint == baseEndpoint + "/" + agentType + "/" + userId
      && user.UserFound? && user.row.Some?
      && r.agent.value.info.name == Capitalize(agentType) + " Agent for " + PyStr(Get(user.row.value, "email", Null))
  {
    var key := CacheKey(userId, agentType);
    if key in cache then Lookup(Some(cache[key]), cache, false)
    else
      match user
      case UserRaised => Lookup(None, cache, true)
      case UserFound(row) =>
        if row.None? || |row.value| == 0 || !memoryLoads then Lookup(None, cache, true)
        else
          match AgentId(agentType, userId)
          case None => Lookup(None, cache, true)
          case Some(id) =>
            var info := AgentInfo(
              id,
              Capitalize(agentType) + " Agent for " + PyStr(Get(row.value, "email", Null)),
              baseEndpoint + "/" + agentType + "/" + userId);
            if !CallAccepted(accepted, kwargs) then Lookup(None, cache, true)
            else
              var agent := Agent(agentType, info, "Personalized " + agentType + " assistant.");
              Lookup(Some(agent), cache[key := agent], true)
  }

  /** `get_user_agent` as written: the constructors do not take
      `memory_service`, so every creation raises, is caught, and returns
      None. */
  function GetUserAgentAsWritten(cache: Cache, userId: string, agentType: string, baseEndpoint: string,
                                 kwargs: set<string>, user: UserFetch, memoryLoads: bool): (r: Lookup)
    ensures CacheKey(userId, agentType) in cache ==> r.agent == Some(cache[CacheKey(userId, agentType)])
  {
    GetWith(cache, userId, agentType, baseEndpoint, kwargs, user, memoryLoads, ConstructorKeywords)
  }

  /** As written, a cache miss never yields an agent and never fills the cache. */
  lemma AsWrittenNeverCreates(cache: Cache, userId: string, agentType: string, baseEndpoint: string,
                              kwargs: set<string>, user: UserFetch, memoryLoads: bool)
    requires CacheKey(userId, agentType) !in cache
    ensures var r := GetUserAgentAsWritten(cache, userId, agentType, baseEndpoint, kwargs, user, memoryLoads);
      r.agent.None? && r.cache == cache
  {
    assert !CallAccepted(ConstructorKeywords, kwargs) by {
      assert "memory_service" in PassedKeywords + kwargs;
      assert "memory_service" !in ConstructorKeywords;
    }
  }

  /** The keywords of constructors that take the memory service the factory
      hands them. */
  const MemoryAwareKeywords: set<string> := ConstructorKeywords + {"memory_service"}

  /** `get_user_agent` with constructors that accept `memory_service`. */
  function GetUserAgent(cache: Cache, userId: string, agentType: string, baseEndpoint: string,
                        kwargs: set<string>, user: UserFetch, memoryLoads: bool): (r: Lookup)
    ensures CacheKey(userId, agentType) in cache ==>
      r == Lookup(Some(cache[CacheKey(userId, agentType)]), cache, false)
    ensures CacheKey(userId, agentType) !in cache ==> r.queried
    ensures r.agent.None? ==> r.cache == cache
    ensures r.agent.Some? ==> r.cache == cache[CacheKey(userId, agentType) := r.agent.value]
    ensures CacheKey(userId, agentType) !in cache ==>
      (r.agent.Some? <==>
        && user.UserFound? && user.row.Some? && |user.row.value| > 0
        && memoryLoads
        && (agentType == Homeowner || agentType == Contractor)
        && kwargs == {})
    ensures CacheKey(userId, agentType) !in cache && r.agent.Some? ==>
      && r.agent.value.kind == agentType
      && r.agent.value.info.id == agentType + "-agent-" + userId
      && r.agent.value.info.endpoint == baseEndpoint + "/" + agentType + "/" + userId
      && user.UserFound? && user.row.Some?
      && r.agent.value.info.name == Capitalize(agentType) + " Agent for " + PyStr(Get(user.row.value, "email", Null))
  {
    var r := GetWith(cache, userId, agentType, baseEndpoint, kwargs, user, memoryLoads, MemoryAwareKeywords);
    assert CallAccepted(MemoryAwareKeywords, kwargs) <==> kwargs == {} by {
      if kwargs != {} {
        var k :| k in kwargs;
        assert k in PassedKeywords + kwargs;
      }
    }
    r
  }

  /** A second request for the same user and type returns the instance the
      first one returned, without touching the database. */
  lemma SecondCallHitsCache(cache: Cache, userId: string, agentType: string, baseEndpoint: string,
                            kwargs: set<string>, user: UserFetch, memoryLoads: bool,
                            kwargs2: set<string>, user2: UserFetch, memoryLoads2: bool)
    requires GetUserAgent(cache, userId, agentType, baseEndpoint, kwargs, user, memoryLoads).agent.Some?
    ensures var first := GetUserAgent(cache, userId, agentType, baseEndpoint, kwargs, user, memoryLoads);
      var second := GetUserAgent(first.cache, userId, agentType, baseEndpoint, kwargs2, user2, memoryLoads2);
      second == Lookup(first.agent, first.cache, false)
  {
    var first := GetUserAgent(cache, userId, agentType, baseEndpoint, kwargs, user, memoryLoads);
    assert CacheKey(userId, agentType) in first.cache;
  }

  /** Entries for other users or types are never changed by a call. */
  lemma OtherEntriesUnchanged(cache: Cache, userId: string, agentType: string, baseEndpoint: string,
                              kwargs: set<string>, user: UserFetch, memoryLoads: bool, key: string)
    requires key != CacheKey(userId, agentType)
    ensures var r := GetUserAgent(cache, userId, agentType, baseEndpoint, kwargs, user, memoryLoads);
      (key in r.cache <==> key in cache) && (key in cache ==> r.cache[key] == cache[key])
  {
  }

  /** Two requests whose cache keys coincide share one agent: the agent the
      first creates, the second returns from the cache without a query. */
  lemma SharedKeySharesAgent(userId: string, agentType: string, userId2: string, agentType2: string,
                             baseEndpoint: string, kwargs: set<string>, user: UserFetch, memoryLoads: bool,
                             kwargs2: set<string>, user2: UserFetch, memoryLoads2: bool)
    requires CacheKey(userId, agentType) == CacheKey(userId2, agentType2)
    requires user.UserFound? && user.row.Some? && |user.row.value| > 0
    requires memoryLoads && kwargs == {} && (agentType == Homeowner || agentType == Contractor)
    ensures var first := GetUserAgent(map[], userId, agentType, baseEndpoint, kwargs, user, memoryLoads);
      var second := GetUserAgent(first.cache, userId2, agentType2, baseEndpoint, kwargs2, user2, memoryLoads2);
      first.agent.Some? && second.agent == first.agent && !second.queried
  {
    var first := GetUserAgent(map[], userId, agentType, baseEndpoint, kwargs, user, memoryLoads);
    assert CacheKey(userId2, agentType2) in first.cache;
  }

  /** User "a:b" with type "contractor" and user "a" with type
      "b:contractor" have the same cache key. */
  lemma KeysCollide()
    ensures CacheKey("a:b", Contractor) == CacheKey("a", "b:contractor")
  {
    assert CacheKey("a:b", Contractor) == "a:b" + ":" + "contractor";
    assert CacheKey("a", "b:contractor") == "a" + ":" + "b:contractor";
    assert "a:b" + ":" + "contractor" == "a" + ":" + "b:contractor";
  }

  /** The cache key joins user and type with ":", so distinct pairs can
      share a key: once user "a:b" has a contractor agent, a request for
      user "a" with the unknown type "b:contractor" returns that agent from
      the cache, before the type is ever checked. */
  lemma CacheKeyCollision(baseEndpoint: string, kwargs: set<string>, user: UserFetch, memoryLoads: bool,
                          kwargs2: set<string>, user2: UserFetch, memoryLoads2: bool)
    requires user.UserFound? && user.row.Some? && |user.row.value| > 0
    requires memoryLoads && kwargs == {}
    ensures var first := GetUserAgent(map[], "a:b", Contractor, baseEndpoint, kwargs, user, memoryLoads);
      var second := GetUserAgent(first.cache, "a", "b:contractor", baseEndpoint, kwargs2, user2, memoryLoads2);
      && first.agent.Some? && AgentId("b:contractor", "a").None?
      && second.agent == first.agent && !second.queried
  {
    KeysCollide();
    SharedKeySharesAgent("a:b", Contractor, "a", "b:contractor", baseEndpoint, kwargs, user, memoryLoads,
                         kwargs2, user2, memoryLoads2);
  }

  /** A contractor agent made by the factory is one the messaging agent
      treats as a contractor. */
  lemma ContractorAgentIsContractor(cache: Cache, userId: string, baseEndpoint: string,
                                    kwargs: set<string>, user: UserFetch, memoryLoads: bool)
    requires CacheKey(userId, Contractor) !in cache
    ensures var r := GetUserAgent(cache, userId, Contractor, baseEndpoint, kwargs, user, memoryLoads);
      r.agent.Some? ==> Messaging.IsContractor(r.agent.value.info.id)
  {
    ContainsOwnPrefix(Messaging.ContractorMarker, "-" + userId);
    assert Contractor + "-agent-" + userId == Messaging.ContractorMarker + ("-" + userId);
  }

  /** A homeowner agent made by the factory is treated as a contractor by the
      messaging agent exactly when the user id itself contains the contractor
      marker. */
  lemma {:induction false} HomeownerAgentRole(cache: Cache, userId: string, baseEndpoint: string,
                                              kwargs: set<string>, user: UserFetch, memoryLoads: bool)
    requires CacheKey(userId, Homeowner) !in cache
    ensures var r := GetUserAgent(cache, userId, Homeowner, baseEndpoint, kwargs, user, memoryLoads);
      r.agent.Some? ==>
        (Messaging.IsContractor(r.agent.value.info.id) <==> Contains(userId, Messaging.ContractorMarker))
  {
    var prefix := "homeowner-agent-";
    assert Messaging.ContractorMarker[0] == 'c';
    assert 'c' !in prefix;
    ContainsAfterPrefix(prefix, userId, Messaging.ContractorMarker);
    assert Homeowner + "-agent-" + userId == prefix + userId;
  }
}

=== FILE: homeowner.dfy ===
/** The homeowner agent's project creation: the placeholder choice of
    input flow, the chat and form fallbacks that gather project details, the
    project and photo records saved to the database, and the task that asks
    the bid card agent to build a card for the new project. */
module Homeowner {
  import opened Values
  import opened Protocol

  /** `_determine_initial_input`: the placeholder always picks the
      description-first flow. */
  function InitialInputType(task: Task): string {
    "describe"
  }

  /** The context `handle_create_task` starts from: the description-first
      flow seeds the task's description; the photo and quote flows are stubs
      that leave it empty. */
  function InitialContext(task: Task): Record {
    var kind := InitialInputType(task);
    if kind == "describe" then map["description" := Str(task.description)] else map[]
  }

  /** Every task takes the description-first flow, so the context holds
      exactly the task's description. */
  lemma DescribeFlowSeedsDescription(task: Task)
    ensures InitialInputType(task) == "describe"
    ensures InitialContext(task).Keys == {"description"}
    ensures InitialContext(task)["description"] == Str(task.description)
  {
  }

  /** The values the chat fallback supplies for missing details. */
  const ChatDefaults: Record := map[
    "title" := Str("Simulated Project Title"),
    "description" := Str("Simulated project description."),
    "category" := Str("Simulated Category"),
    "project_type" := Str("one-time"),
    "location_description" := Str("90210"),
    "timeline" := Str("within_month"),
    "allow_group_bidding" := Bool(true),
    "photo_paths" := List([Str("simulated/photo.jpg")])]

  /** `_gather_details_chat` (fallback simulation): every detail already
      in the context is kept, each missing one gets its default, and the
      result is None exactly when the description or the location is falsy. */
  function GatherDetailsChat(context: Record): (r: Option<Record>)
    ensures r.Some? ==> r.value.Keys == context.Keys + ChatDefaults.Keys
    ensures r.Some? ==> forall k | k in context :: r.value[k] == context[k]
    ensures r.Some? ==> forall k | k in ChatDefaults && k !in context :: r.value[k] == ChatDefaults[k]
    ensures r.None? <==>
      || ("description" in context && !Truthy(context["description"]))
      || ("location_description" in context && !Truthy(context["location_description"]))
  {
    var gathered := context + map k | k in ChatDefaults :: Get(context, k, ChatDefaults[k]);
    if !Truthy(Get(gathered, "description", Null)) || !Truthy(Get(gathered, "location_description", Null)) then None
    else Some(gathered)
  }

  /** The values the form fallback writes over the context. */
  const FormValues: Record := map[
    "title" := Str("Placeholder Title from Form"),
    "category" := Str("Placeholder Category"),
    "project_type" := Str("one-time"),
    "location_description" := Str("90210"),
    "timeline" := Str("within_month"),
    "allow_group_bidding" := Bool(false),
    "photo_paths" := List([])]

  const FormDefaultDescription := Str("Placeholder description from form")

  /** `_gather_details_form` (placeholder): overwrites every gathered
      detail but the description, which the context keeps if it has one.
      The source updates the caller's dict in place and returns it; the
      result here is that dict's new state. */
  function GatherDetailsForm(context: Record): (r: Record)
    ensures r.Keys == context.Keys + FormValues.Keys + {"description"}
    ensures forall k | k in FormValues :: r[k] == FormValues[k]
    ensures "description" in context ==> r["description"] == context["description"]
    ensures "description" !in context ==> r["description"] == FormDefaultDescription
    ensures forall k | k in context && k !in FormValues && k != "description" :: r[k] == context[k]
  {
    context + FormValues + map["description" := Get(context, "description", FormDefaultDescription)]
  }

  /** The database as the homeowner agent sees it: no client, or a client
      whose project insert and photo insert answer as given. */
  datatype Db = NoClient | Client(projectInsert: Response, photoInsert: Response)

  const ProjectKeys: set<string> :=
    {"homeowner_id", "title", "description", "category", "location_description", "status", "metadata"}

  const MetadataKeys: set<string> := {"project_type", "timeline", "allow_group_bidding"}

  /** The columns copied from the details only when present and not None. */
  const OptionalColumns: set<string> := {"description", "category", "location_description"}

  /** The project's top-level fields with None values dropped.
      `freshUuid` stands for the `uuid4()` drawn as placeholder homeowner id. */
  function ProjectFields(details: Record, freshUuid: string): (r: Record)
    ensures r.Keys <= ProjectKeys - {"metadata"}
    ensures "status" in r && r["status"] == Str("open")
    ensures "title" !in details ==> "title" in r && r["title"] == Str("Untitled Project")
    ensures "homeowner_id" !in details ==> "homeowner_id" in r && r["homeowner_id"] == Str(freshUuid)
    ensures forall k | k in details && k in ProjectKeys - {"status", "metadata"} ::
      (k in r <==> !details[k].Null?) && (k in r ==> r[k] == details[k])
    ensures forall k | k in OptionalColumns :: k in r <==> k in details && !details[k].Null?
    ensures forall k | k in r :: !r[k].Null?
  {
    DropNone(map[
      "homeowner_id" := Get(details, "homeowner_id", Str(freshUuid)),
      "title" := Get(details, "title", Str("Untitled Project")),
      "description" := Get(details, "description", Null),
      "category" := Get(details, "category", Null),
      "location_description" := Get(details, "location_description", Null),
      "status" := Str("open")])
  }

  /** The project's metadata with None values dropped, or None when no
      entry remains. */
  function ProjectMetadata(details: Record): (m: Value)
    ensures m.Null? || m.Dict?
    ensures m.Dict? ==>
      && m.fields.Keys <= MetadataKeys
      && |m.fields| > 0
      && forall k | k in m.fields :: !m.fields[k].Null?
    ensures forall k | k in MetadataKeys && k in details && !details[k].Null? ::
      m.Dict? && k in m.fields && m.fields[k] == details[k]
    ensures "allow_group_bidding" !in details ==>
      m.Dict? && "allow_group_bidding" in m.fields && m.fields["allow_group_bidding"] == Bool(false)
    ensures m.Dict? ==>
      && ("project_type" in m.fields <==> !Get(details, "project_type", Null).Null?)
      && ("timeline" in m.fields <==> !Get(details, "timeline", Null).Null?)
      && ("allow_group_bidding" in m.fields <==>
            !("allow_group_bidding" in details && details["allow_group_bidding"].Null?))
    ensures m.Null? <==>
      && Get(details, "project_type", Null).Null?
      && Get(details, "timeline", Null).Null?
      && "allow_group_bidding" in details && details["allow_group_bidding"].Null?
  {
    var metadata := map[
      "project_type" := Get(details, "project_type", Null),
      "timeline" := Get(details, "timeline", Null),
      "allow_group_bidding" := Get(details, "allow_group_bidding", Bool(false))];
    var cleaned := DropNone(metadata);
    assert |cleaned| == 0 <==> forall k | k in metadata :: metadata[k].Null? by {
      if forall k | k in metadata :: metadata[k].Null? {
        assert cleaned == map[];
      } else {
        var k :| k in metadata && !metadata[k].Null?;
        assert k in cleaned.Keys;
      }
    }
    if |cleaned| > 0 then Dict(cleaned)
    else
      assert "project_type" in metadata && "timeline" in metadata && "allow_group_bidding" in metadata;
      Null
  }

  /** The project record `_save_project_to_db` inserts: the None-filter
      never drops the metadata dict, and the cleaned metadata then replaces
      it. */
  function ProjectRecord(details: Record, freshUuid: string): (r: Record)
    ensures r.Keys <= ProjectKeys
    ensures "metadata" in r && r["metadata"] == ProjectMetadata(details)
    ensures "status" in r && r["status"] == Str("open")
    ensures "title" !in details ==> "title" in r && r["title"] == Str("Untitled Project")
    ensures "homeowner_id" !in details ==> "homeowner_id" in r && r["homeowner_id"] == Str(freshUuid)
    ensures forall k | k in details && k in ProjectKeys - {"status", "metadata"} ::
      (k in r <==> !details[k].Null?) && (k in r ==> r[k] == details[k])
    ensures forall k | k in OptionalColumns :: k in r <==> k in details && !details[k].Null?
    ensures forall k | k in r && k != "metadata" :: !r[k].Null?
  {
    ProjectFields(details, freshUuid)["metadata" := ProjectMetadata(details)]
  }

  /** `for path in v`: a list yields its items and a string its
      characters; None stands for the TypeError of a value that is not
      iterable. */
  function Iterate(v: Value): Option<seq<Value>> {
    match v
    case List(items) => Some(items)
    case Str(s) => Some(seq(|s|, i requires 0 <= i < |s| => Str([s[i]])))
    case _ => None
  }

  /** The string items of `paths`, in order; other items are skipped. */
  function StringPaths(paths: seq<Value>): (r: seq<string>)
    ensures |r| <= |paths|
    ensures forall p :: p in r <==> Str(p) in paths
    ensures (forall i | 0 <= i < |paths| :: paths[i].Str?) ==>
      |r| == |paths| && forall i | 0 <= i < |paths| :: r[i] == paths[i].s
    ensures |paths| == 1 ==> r == if paths[0].Str? then [paths[0].s] else []
  {
    if |paths| == 0 then []
    else
      var rest := StringPaths(paths[1..]);
      assert forall p :: Str(p) in paths <==> Str(p) == paths[0] || Str(p) in paths[1..] by {
        assert paths == [paths[0]] + paths[1..];
      }
      if paths[0].Str? then [paths[0].s] + rest else rest
  }

  /** Filtering a concatenation filters each part and keeps them in order;
      with the one-item case this fixes the order and multiplicity of the
      kept paths. */
  lemma {:induction false} StringPathsAppend(a: seq<Value>, b: seq<Value>)
    ensures StringPaths(a + b) == StringPaths(a) + StringPaths(b)
  {
    if |a| == 0 {
      assert a + b == b;
    } else {
      assert (a + b)[0] == a[0];
      assert (a + b)[1..] == a[1..] + b;
      StringPathsAppend(a[1..], b);
    }
  }

  /** One photo row per string path, in order, tagged with the project. */
  function PhotoRows(projectId: Value, paths: seq<Value>): (rows: seq<Record>)
    ensures |rows| == |StringPaths(paths)|
    ensures forall i | 0 <= i < |rows| ::
      rows[i] == map["project_id" := projectId, "storage_path" := Str(StringPaths(paths)[i])]
  {
    var strings := StringPaths(paths);
    seq(|strings|, i requires 0 <= i < |strings| =>
      map["project_id" := projectId, "storage_path" := Str(strings[i])])
  }

  /** What `_save_project_to_db` did: the project record inserted (if an
      insert was made), the photo rows inserted (if any), and the returned
      project id (`Null` for None). */
  datatype Save = Save(project: Option<Record>, photos: Option<seq<Record>>, projectId: Value)

  /** The id of the first row an insert returned, if it has one. */
  function FirstId(response: Response): Option<Value> {
    match response
    case Failed => None
    case Rows(rows) => if |rows| > 0 && "id" in rows[0] then Some(rows[0]["id"]) else None
  }

  /** `details.get("photo_paths", [])` */
  function PhotoPaths(details: Record): Value {
    Get(details, "photo_paths", List([]))
  }

  /** The photo step runs for the project id and raises: the paths are not
      iterable, or there are string paths and their insert raises. */
  predicate PhotoStepRaises(details: Record, projectId: Value, photoInsert: Response) {
    && Truthy(PhotoPaths(details)) && Truthy(projectId)
    && (|| Iterate(PhotoPaths(details)).None?
        || (|StringPaths(Iterate(PhotoPaths(details)).value)| > 0 && photoInsert.Failed?))
  }

  /** `_save_project_to_db`. */
  function SaveProject(details: Record, db: Db, freshUuid: string): (s: Save)
    ensures db.NoClient? ==> s == Save(None, None, Null)
    ensures db.Client? ==> s.project == Some(ProjectRecord(details, freshUuid))
    ensures !s.projectId.Null? ==> FirstId(db.projectInsert) == Some(s.projectId)
    ensures db.Client? && FirstId(db.projectInsert).None? ==> s.projectId == Null && s.photos.None?
    ensures db.Client? && FirstId(db.projectInsert).Some? ==>
      s.projectId == if PhotoStepRaises(details, FirstId(db.projectInsert).value, db.photoInsert)
                     then Null else FirstId(db.projectInsert).value
    ensures s.photos.Some? <==>
      && db.Client? && FirstId(db.projectInsert).Some?
      && Truthy(PhotoPaths(details)) && Truthy(FirstId(db.projectInsert).value)
      && Iterate(PhotoPaths(details)).Some? && |StringPaths(Iterate(PhotoPaths(details)).value)| > 0
    ensures s.photos.Some? ==>
      s.photos.value == PhotoRows(FirstId(db.projectInsert).value, Iterate(PhotoPaths(details)).value)
    ensures s.photos.Some? ==>
      && FirstId(db.projectInsert).Some?
      && Truthy(FirstId(db.projectInsert).value)
      && |s.photos.value| > 0
      && forall i | 0 <= i < |s.photos.value| ::
           "project_id" in s.photos.value[i] && s.photos.value[i]["project_id"] == FirstId(db.projectInsert).value
  {
    if db.NoClient? then Save(None, None, Null)
    else
      var record := ProjectRecord(details, freshUuid);
      var photoPaths := PhotoPaths(details);
      match FirstId(db.projectInsert)
      case None => Save(Some(record), None, Null)
      case Some(projectId) =>
        if !(Truthy(photoPaths) && Truthy(projectId)) then Save(Some(record), None, projectId)
        else
          match Iterate(photoPaths)
          case None => Save(Some(record), None, Null)
          case Some(items) =>
            var photos := PhotoRows(projectId, items);
            if |photos| == 0 then Save(Some(record), None, projectId)
            else if db.photoInsert.Failed? then Save(Some(record), Some(photos), Null)
            else Save(Some(record), Some(photos), projectId)
  }

  /** A photo insert that answers, even with no rows, leaves the returned
      id as the project insert gave it. */
  lemma PhotoResponseDoesNotChangeId(details: Record, projectInsert: Response, rows1: seq<Record>,
                                     rows2: seq<Record>, freshUuid: string)
    ensures SaveProject(details, Client(projectInsert, Rows(rows1)), freshUuid).projectId
         == SaveProject(details, Client(projectInsert, Rows(rows2)), freshUuid).projectId
  {
  }

  /** A photo insert that raises lands in the save's error handler: the
      project row was inserted, yet no id is returned. */
  lemma PhotoInsertFailureLosesId(details: Record, projectInsert: Response, freshUuid: string)
    requires FirstId(projectInsert).Some? && Truthy(FirstId(projectInsert).value)
    requires "photo_paths" in details && details["photo_paths"].List?
    requires exists i | 0 <= i < |details["photo_paths"].items| :: details["photo_paths"].items[i].Str?
    ensures var s := SaveProject(details, Client(projectInsert, Failed), freshUuid);
      s.project.Some? && s.photos.Some? && s.projectId == Null
  {
    var items := details["photo_paths"].items;
    var i :| 0 <= i < |items| && items[i].Str?;
    assert items[i] in items;
    assert items[i].s in StringPaths(items);
    assert Truthy(PhotoPaths(details)) && Iterate(PhotoPaths(details)) == Some(items);
    assert PhotoStepRaises(details, FirstId(projectInsert).value, Failed);
  }

  /** The task asking the bid card agent for a card. */
  datatype CreateTaskCall = CreateTaskCall(target: AgentInfo, description: string, metadata: Record)

  /** `_trigger_bid_card_creation`: a task for the bid card agent, unless
      its endpoint is configured as the empty string. */
  function TriggerBidCard(originalTaskId: string, projectId: Value, details: Record, env: Env)
    : (c: Option<CreateTaskCall>)
    ensures c.Some? <==> GetEnvOr(env, "BID_CARD_AGENT_ENDPOINT", "http://localhost:8002") != ""
    ensures c.Some? ==>
      && c.value.target.id == GetEnvOr(env, "BID_CARD_AGENT_ID", "bid-card-agent-001")
      && c.value.metadata.Keys == {"project_id", "original_task_id", "project_title", "project_category"}
      && c.value.metadata["project_id"] == projectId
      && c.value.metadata["original_task_id"] == Str(originalTaskId)
      && c.value.metadata["project_title"] == Get(details, "title", Null)
      && c.value.metadata["project_category"] == Get(details, "category", Null)
      && c.value.target.endpoint == GetEnvOr(env, "BID_CARD_AGENT_ENDPOINT", "http://localhost:8002")
      && c.value.target.name == "Bid Card Agent"
      && c.value.description == "Generate standardized Bid Card artifact for project " + PyStr(projectId)
  {
    var agentId := GetEnvOr(env, "BID_CARD_AGENT_ID", "bid-card-agent-001");
    var endpoint := GetEnvOr(env, "BID_CARD_AGENT_ENDPOINT", "http://localhost:8002");
    if endpoint == "" then None
    else
      Some(CreateTaskCall(
        AgentInfo(agentId, "Bid Card Agent", endpoint),
        "Generate standardized Bid Card artifact for project " + PyStr(projectId),
        map[
          "project_id" := projectId,
          "original_task_id" := Str(originalTaskId),
          "project_title" := Get(details, "title", Null),
          "project_category" := Get(details, "category", Null)]))
  }

  /** The interaction mode; the source fixes it to chat. */
  const InteractionMode := "chat"

  /** What `handle_create_task` did: the gathered details, the save (if
      attempted) and the bid card task (if created). */
  datatype Run = Run(details: Option<Record>, save: Option<Save>, trigger: Option<CreateTaskCall>)

  /** `handle_create_task`. */
  function HandleCreateTask(task: Task, db: Db, freshUuid: string, env: Env): (r: Run)
    ensures r.details == GatherDetailsChat(InitialContext(task))
    ensures r.details.Some? <==> task.description != ""
    ensures r.save.Some? <==> r.details.Some?
    ensures r.save.Some? ==> r.save.value == SaveProject(r.details.value, db, freshUuid)
    ensures r.save.Some? && Truthy(r.save.value.projectId) ==>
      r.trigger == TriggerBidCard(task.id, r.save.value.projectId, r.details.value, env)
    ensures r.trigger.Some? ==>
      && r.save.Some? && Truthy(r.save.value.projectId)
      && "project_id" in r.trigger.value.metadata
      && r.trigger.value.metadata["project_id"] == r.save.value.projectId
      && "original_task_id" in r.trigger.value.metadata
      && r.trigger.value.metadata["original_task_id"] == Str(task.id)
    ensures r.save.Some? && Truthy(r.save.value.projectId) ==>
      (r.trigger.Some? <==> GetEnvOr(env, "BID_CARD_AGENT_ENDPOINT", "http://localhost:8002") != "")
  {
    var context := InitialContext(task);
    var details := if InteractionMode == "chat" then GatherDetailsChat(context) else Some(GatherDetailsForm(context));
    match details
    case None => Run(None, None, None)
    case Some(d) =>
      if |d| == 0 then Run(details, None, None)
      else
        var save := SaveProject(d, db, freshUuid);
        if !Truthy(save.projectId) then Run(details, Some(save), None)
        else Run(details, Some(save), TriggerBidCard(task.id, save.projectId, d, env))
  }

  /** The chat fallback, seeded with a non-empty description, keeps it and
      fills in the simulated location and group-bidding choice. */
  lemma ChatKeepsSeededDescription(description: string)
    requires description != ""
    ensures var g := GatherDetailsChat(map["description" := Str(description)]);
      && g.Some? && |g.value| > 0
      && "description" in g.value && g.value["description"] == Str(description)
      && "location_description" in g.value && g.value["location_description"] == Str("90210")
      && "allow_group_bidding" in g.value && g.value["allow_group_bidding"] == Bool(true)
  {
    var g := GatherDetailsChat(map["description" := Str(description)]);
    assert "title" in g.value.Keys;
  }

  /** End to end: a saved project carries the task's description, the chat
      fallback's location, and its default group-bidding choice. */
  lemma SavedProjectCarriesTaskDescription(task: Task, db: Db, freshUuid: string, env: Env)
    requires task.description != "" && db.Client?
    ensures var r := HandleCreateTask(task, db, freshUuid, env);
      && r.save.Some? && r.save.value.project.Some?
      && var p := r.save.value.project.value;
      && "description" in p && p["description"] == Str(task.description)
      && "location_description" in p && p["location_description"] == Str("90210")
      && "metadata" in p && p["metadata"].Dict?
      && "allow_group_bidding" in p["metadata"].fields
      && p["metadata"].fields["allow_group_bidding"] == Bool(true)
  {
    ChatKeepsSeededDescription(task.description);
    var d := GatherDetailsChat(InitialContext(task)).value;
    assert HandleCreateTask(task, db, freshUuid, env).save == Some(SaveProject(d, db, freshUuid));
    assert "description" in OptionalColumns && "location_description" in OptionalColumns;
  }

  /** A run that triggers the bid card saved details holding the task's
      description, and its trigger names the saved project. */
  lemma TriggeredRunNamesProject(task: Task, db: Db, freshUuid: string, env: Env)
    ensures var r := HandleCreateTask(task, db, freshUuid, env);
      r.trigger.Some? ==>
        && r.save.Some? && r.details.Some? && Truthy(r.save.value.projectId)
        && "project_id" in r.trigger.value.metadata
        && r.trigger.value.metadata["project_id"] == r.save.value.projectId
        && "description" in r.details.value && r.details.value["description"] == Str(task.description)
  {
    var r := HandleCreateTask(task, db, freshUuid, env);
    if r.trigger.Some? {
      DescribeFlowSeedsDescription(task);
      assert InitialContext(task) == map["description" := Str(task.description)];
      ChatKeepsSeededDescription(task.description);
    }
  }
}

=== FILE: matching.dfy ===
/** The matching agent: decides which kind of match a task asks for and
    answers it with its placeholder finders. */
module Matching {
  import opened Values
  import opened Protocol
  import Messaging

  const FindContractors := "find_contractors"
  const FindProjects := "find_projects"

  /** The kind of match asked for: `match_type` from the metadata when
      truthy, else read off the lower-cased description ("find contractors"
      wins over "find projects"); None when neither applies. */
  function MatchType(task: Task): (t: Option<Value>)
    ensures Truthy(MetaGet(task.metadata, "match_type")) ==> t == Some(MetaGet(task.metadata, "match_type"))
    ensures !Truthy(MetaGet(task.metadata, "match_type")) ==>
      && (t == Some(Str(FindContractors)) <==> Contains(Lower(task.description), "find contractors"))
      && (t == Some(Str(FindProjects)) <==>
            !Contains(Lower(task.description), "find contractors")
            && Contains(Lower(task.description), "find projects"))
      && (t.None? <==>
            !Contains(Lower(task.description), "find contractors")
            && !Contains(Lower(task.description), "find projects"))
  {
    var fromMetadata := MetaGet(task.metadata, "match_type");
    if Truthy(fromMetadata) then Some(fromMetadata)
    else if Contains(Lower(task.description), "find contractors") then Some(Str(FindContractors))
    else if Contains(Lower(task.description), "find projects") then Some(Str(FindProjects))
    else None
  }

  /** `find_contractors_for_project` (placeholder): the ids of contractor
      agents 1 to 3, zero-padded to three digits, whatever the project. */
  function FindContractorsForProject(projectId: Value): (ids: seq<string>)
    ensures ids == ["contractor-agent-001", "contractor-agent-002", "contractor-agent-003"]
  {
    var ids := seq(3, i requires 0 <= i < 3 => "contractor-agent-" + ZeroPad3(i + 1));
    ZeroPad3Digit(1);
    ZeroPad3Digit(2);
    ZeroPad3Digit(3);
    assert ids[0] == "contractor-agent-001";
    assert ids[1] == "contractor-agent-002";
    assert ids[2] == "contractor-agent-003";
    ids
  }

  /** Every placeholder contractor is one the messaging agent treats as a
      contractor. */
  lemma PlaceholderContractorsAreContractors(projectId: Value)
    ensures forall id | id in FindContractorsForProject(projectId) :: Messaging.IsContractor(id)
  {
    var ids := FindContractorsForProject(projectId);
    forall id | id in ids
      ensures Messaging.IsContractor(id)
    {
      var i :| 0 <= i < |ids| && ids[i] == id;
      var suffix := ["-001", "-002", "-003"][i];
      ContainsOwnPrefix(Messaging.ContractorMarker, suffix);
      assert id == Messaging.ContractorMarker + suffix;
    }
  }

  /** `find_projects_for_contractor` (placeholder): five fresh project ids;
      `uuid(i)` stands for the i-th `uuid4()` drawn. */
  function FindProjectsForContractor(contractorId: Value, criteria: Option<Record>, uuid: nat -> string)
    : (ids: seq<string>)
    ensures |ids| == 5
    ensures forall i | 0 <= i < 5 :: |ids[i]| >= 5 && ids[i][..5] == "proj_" && ids[i][5..] == uuid(i)
    ensures (forall i: nat, j: nat | i != j :: uuid(i) != uuid(j)) ==>
      forall i, j | 0 <= i < j < 5 :: ids[i] != ids[j]
  {
    var ids := seq(5, i requires 0 <= i < 5 => "proj_" + uuid(i));
    assert forall i | 0 <= i < 5 :: ids[i][5..] == uuid(i);
    ids
  }

  /** What one `handle_create_task` call ended with. */
  datatype Outcome =
    | NoDatabaseClient
    | UndeterminedType
    | MissingProjectId
    | MissingContractorId
    | NoResults(matchType: Value)   // a match type neither finder handles
    | Contractors(ids: seq<string>)
    | Projects(ids: seq<string>)

  /** `handle_create_task`. */
  function HandleCreateTask(task: Task, hasClient: bool, uuid: nat -> string): (o: Outcome)
    ensures !hasClient <==> o == NoDatabaseClient
    ensures o == UndeterminedType <==> hasClient && MatchType(task).None?
    ensures o.Contractors? <==>
      hasClient && MatchType(task) == Some(Str(FindContractors))
      && Truthy(MetaGet(task.metadata, "project_id"))
    ensures o.Contractors? ==> o.ids == FindContractorsForProject(MetaGet(task.metadata, "project_id"))
    ensures o.Projects? <==>
      hasClient && MatchType(task) == Some(Str(FindProjects))
      && Truthy(MetaGet(task.metadata, "contractor_id"))
    ensures o.Projects? ==>
      o.ids == FindProjectsForContractor(MetaGet(task.metadata, "contractor_id"), task.metadata, uuid)
    ensures o == MissingProjectId <==>
      hasClient && MatchType(task) == Some(Str(FindContractors)) && !Truthy(MetaGet(task.metadata, "project_id"))
    ensures o == MissingContractorId <==>
      hasClient && MatchType(task) == Some(Str(FindProjects)) && !Truthy(MetaGet(task.metadata, "contractor_id"))
    ensures o.NoResults? <==>
      hasClient && MatchType(task).Some?
      && MatchType(task) != Some(Str(FindContractors)) && MatchType(task) != Some(Str(FindProjects))
  {
    if !hasClient then NoDatabaseClient
    else
      match MatchType(task)
      case None => UndeterminedType
      case Some(matchType) =>
        if matchType == Str(FindContractors) then
          var projectId := MetaGet(task.metadata, "project_id");
          if !Truthy(projectId) then MissingProjectId else Contractors(FindContractorsForProject(projectId))
        else if matchType == Str(FindProjects) then
          var contractorId := MetaGet(task.metadata, "contractor_id");
          if !Truthy(contractorId) then MissingContractorId
          else Projects(FindProjectsForContractor(contractorId, task.metadata, uuid))
        else NoResults(matchType)
  }

  /** Every contractor a match returns is one the messaging agent treats
      as a contractor. */
  lemma MatchedContractorsAreContractors(task: Task, hasClient: bool, uuid: nat -> string)
    ensures var o := HandleCreateTask(task, hasClient, uuid);
      o.Contractors? ==> forall id | id in o.ids :: Messaging.IsContractor(id)
  {
    var o := HandleCreateTask(task, hasClient, uuid);
    if o.Contractors? {
      PlaceholderContractorsAreContractors(MetaGet(task.metadata, "project_id"));
    }
  }

  /** A truthy `match_type` in the metadata decides the match alone: the
      description is never read. */
  lemma ExplicitTypeIgnoresDescription(task: Task, description: string, hasClient: bool, uuid: nat -> string)
    requires Truthy(MetaGet(task.metadata, "match_type"))
    ensures HandleCreateTask(task.(description := description), hasClient, uuid) == HandleCreateTask(task, hasClient, uuid)
  {
    assert MatchType(task.(description := description)) == MatchType(task);
  }
}

=== FILE: messaging.dfy ===
/** The messaging agent: the gate that decides whether a message between a
    homeowner's agent and a contractor's agent about a project may be
    forwarded, the forwarding itself, the endpoint lookup, and the fan-out of
    a broadcast to a project's bidders.

    The database is an input (`Db`): the bids table's rows, or no client, or a
    client whose queries raise. The transport is a function giving the outcome
    of each send; the agent only logs that outcome. */
module Messaging {
  import opened Values
  import opened Protocol

  /** The substring by which the gate recognises a contractor's agent id. */
  const ContractorMarker := "contractor-agent"

  /** Role test: an agent id is a contractor's iff it contains the marker;
      every other id is treated as a homeowner's. */
  predicate IsContractor(agentId: string) {
    Contains(agentId, ContractorMarker)
  }

  /** One row of the bids table, as far as the messaging agent reads it. */
  datatype BidRow = BidRow(projectId: string, contractorId: string, status: Value)

  /** The database client: absent, or present over the bids table, with
      every query raising when `queriesFail` holds. */
  datatype Db = NoClient | Client(bids: seq<BidRow>, queriesFail: bool)

  /** The gate's answer: `(allowed, reason)`. */
  datatype Verdict = Verdict(allowed: bool, reason: string)

  const AllowedTag := "Allowed:"
  const BlockedTag := "Blocked:"

  /** An allowing verdict; its reason is "Allowed:" followed by `text`. */
  function Allow(text: string): (v: Verdict)
    ensures v.allowed && AllowedTag <= v.reason && !(BlockedTag <= v.reason)
  {
    var reason := AllowedTag + text;
    assert reason[..|AllowedTag|] == AllowedTag;
    assert reason[0] != BlockedTag[0];
    Verdict(true, reason)
  }

  /** A denying verdict; its reason is "Blocked:" followed by `text`. */
  function Deny(text: string): (v: Verdict)
    ensures !v.allowed && BlockedTag <= v.reason && !(AllowedTag <= v.reason)
  {
    var reason := BlockedTag + text;
    assert reason[..|BlockedTag|] == BlockedTag;
    assert reason[0] != AllowedTag[0];
    Verdict(false, reason)
  }

  // The text after the tag of each reason the gate gives.
  const MissingProject := " Missing project context"
  const NoDatabase := " Database connection unavailable"
  const ContractorToContractor := " Contractor-to-contractor messaging not supported"
  const HomeownerToHomeowner := " Homeowner-to-homeowner messaging not supported"
  const RolesUnmapped := " Could not identify homeowner/contractor roles or map AgentID to UserID"
  const BidAccepted := " Bid accepted"
  const BidPending := " Bid pending (redaction may apply)"
  const FollowUp := " Follow-up contact"
  const InitialContact := " Initial pre-bid contact"
  const NoRelationship := " No accepted/pending bid or prior contact"
  const CheckError := " Error checking permissions"

  /** A row answers the gate's query `.eq("project_id", p).eq("contractor_id", c)`. */
  predicate ForPair(row: BidRow, projectId: Value, contractorId: string) {
    Str(row.projectId) == projectId && row.contractorId == contractorId
  }

  /** The query returned at least one row (`bids` is truthy). */
  predicate HasBid(bids: seq<BidRow>, projectId: Value, contractorId: string) {
    exists i | 0 <= i < |bids| :: ForPair(bids[i], projectId, contractorId)
  }

  /** `any(bid.get("status") == status for bid in bids)` */
  predicate HasBidWithStatus(bids: seq<BidRow>, projectId: Value, contractorId: string, status: string) {
    exists i | 0 <= i < |bids| :: ForPair(bids[i], projectId, contractorId) && bids[i].status == Str(status)
  }

  /** The statuses the gate's query returns, in row order. */
  function PairStatuses(bids: seq<BidRow>, projectId: Value, contractorId: string): seq<Value> {
    if |bids| == 0 then []
    else
      (if ForPair(bids[0], projectId, contractorId) then [bids[0].status] else [])
      + PairStatuses(bids[1..], projectId, contractorId)
  }

  /** The party of a mixed pair that is the contractor, by agent id. */
  function ContractorParty(senderId: string, recipientId: string): string {
    if IsContractor(senderId) then senderId else recipientId
  }

  /** The party of a mixed pair that is the homeowner, by agent id. */
  function HomeownerParty(senderId: string, recipientId: string): string {
    if IsContractor(senderId) then recipientId else senderId
  }

  /** The placeholder mapping from a contractor's agent id to the user id
      its bids are filed under: the id itself. */
  function ContractorUserId(contractorAgentId: string): string {
    contractorAgentId
  }

  /** The bid rules, tried in order once the pair is a homeowner and a
      contractor and the bids query has answered. Prior contact is never
      looked up: the source fixes it to False. */
  function BidRules(bids: seq<BidRow>, projectId: Value, contractorUserId: string, senderIsContractor: bool): Verdict {
    var hasAccepted := HasBidWithStatus(bids, projectId, contractorUserId, "accepted");
    var hasPending := HasBidWithStatus(bids, projectId, contractorUserId, "pending");
    var hasPriorContact := false;
    if hasAccepted then Allow(BidAccepted)
    else if hasPending then Allow(BidPending)
    else if senderIsContractor && hasPriorContact then Allow(FollowUp)
    else if senderIsContractor && !hasPending && !hasPriorContact && !HasBid(bids, projectId, contractorUserId) then
      Allow(InitialContact)
    else Deny(NoRelationship)
  }

  /** `_should_allow_message`: first matching rule wins. Every allowed
      verdict's reason starts "Allowed:", every denial's "Blocked:". */
  function ShouldAllow(projectId: Value, senderId: string, recipientId: string, db: Db): (v: Verdict)
    ensures v.allowed <==> AllowedTag <= v.reason
    ensures !v.allowed <==> BlockedTag <= v.reason
  {
    if !Truthy(projectId) then Deny(MissingProject)
    else if db.NoClient? then Deny(NoDatabase)
    else
      var senderIsContractor := IsContractor(senderId);
      var recipientIsContractor := IsContractor(recipientId);
      if senderIsContractor && recipientIsContractor then Deny(ContractorToContractor)
      else if !senderIsContractor && !recipientIsContractor then Deny(HomeownerToHomeowner)
      else
        var homeownerId := if senderIsContractor then recipientId else senderId;
        var contractorAgentId := if senderIsContractor then senderId else recipientId;
        var contractorUserId := ContractorUserId(contractorAgentId);
        if homeownerId == "" || contractorUserId == "" then Deny(RolesUnmapped)
        else if db.queriesFail then Deny(CheckError)
        else BidRules(db.bids, projectId, contractorUserId, senderIsContractor)
  }

  /** Fail-closed: a missing project is checked before anything else, then
      the client, then (for a mixed pair) the homeowner id, then the query. */
  lemma FailsClosed(projectId: Value, senderId: string, recipientId: string, db: Db)
    ensures !Truthy(projectId) ==> ShouldAllow(projectId, senderId, recipientId, db) == Deny(MissingProject)
    ensures Truthy(projectId) && db.NoClient? ==>
      ShouldAllow(projectId, senderId, recipientId, db) == Deny(NoDatabase)
    ensures (Truthy(projectId) && db.Client? && IsContractor(senderId) != IsContractor(recipientId)
             && HomeownerParty(senderId, recipientId) == "") ==>
      ShouldAllow(projectId, senderId, recipientId, db) == Deny(RolesUnmapped)
    ensures (Truthy(projectId) && db.Client? && IsContractor(senderId) != IsContractor(recipientId)
             && HomeownerParty(senderId, recipientId) != "" && db.queriesFail) ==>
      ShouldAllow(projectId, senderId, recipientId, db) == Deny(CheckError)
  {
  }

  /** Two contractors, or two non-contractors, are denied with the
      role-specific reason whatever the bids are. */
  lemma SameRoleDenied(projectId: Value, senderId: string, recipientId: string, bids: seq<BidRow>, queriesFail: bool)
    requires Truthy(projectId)
    requires IsContractor(senderId) == IsContractor(recipientId)
    ensures ShouldAllow(projectId, senderId, recipientId, Client(bids, queriesFail))
      == Deny(if IsContractor(senderId) then ContractorToContractor else HomeownerToHomeowner)
  {
  }

  /** The gate passes the contractor's agent id itself to the bids query:
      two bids tables that answer that query with the same statuses yield
      the same verdict, whatever their other rows. */
  lemma VerdictDependsOnlyOnPairStatuses(projectId: Value, senderId: string, recipientId: string,
                                          bids1: seq<BidRow>, bids2: seq<BidRow>, queriesFail: bool)
    requires PairStatuses(bids1, projectId, ContractorParty(senderId, recipientId))
          == PairStatuses(bids2, projectId, ContractorParty(senderId, recipientId))
    ensures ShouldAllow(projectId, senderId, recipientId, Client(bids1, queriesFail))
         == ShouldAllow(projectId, senderId, recipientId, Client(bids2, queriesFail))
  {
    var c := ContractorParty(senderId, recipientId);
    PairStatusesReflectRows(bids1, projectId, c, "accepted");
    PairStatusesReflectRows(bids2, projectId, c, "accepted");
    PairStatusesReflectRows(bids1, projectId, c, "pending");
    PairStatusesReflectRows(bids2, projectId, c, "pending");
  }

  /** The query's statuses list exactly the matching rows' statuses. */
  lemma {:induction false} PairStatusesReflectRows(bids: seq<BidRow>, projectId: Value, contractorId: string, status: string)
    ensures Str(status) in PairStatuses(bids, projectId, contractorId)
      <==> HasBidWithStatus(bids, projectId, contractorId, status)
    ensures |PairStatuses(bids, projectId, contractorId)| == 0 <==> !HasBid(bids, projectId, contractorId)
  {
    if |bids| > 0 {
      var rest := bids[1..];
      PairStatusesReflectRows(rest, projectId, contractorId, status);
      if HasBidWithStatus(rest, projectId, contractorId, status) {
        var i :| 0 <= i < |rest| && ForPair(rest[i], projectId, contractorId) && rest[i].status == Str(status);
        assert bids[i + 1] == rest[i];
      }
      if HasBidWithStatus(bids, projectId, contractorId, status) {
        var i :| 0 <= i < |bids| && ForPair(bids[i], projectId, contractorId) && bids[i].status == Str(status);
        if i > 0 {
          assert rest[i - 1] == bids[i];
        }
      }
      if HasBid(rest, projectId, contractorId) {
        var i :| 0 <= i < |rest| && ForPair(rest[i], projectId, contractorId);
        assert bids[i + 1] == rest[i];
      }
      if HasBid(bids, projectId, contractorId) {
        var i :| 0 <= i < |bids| && ForPair(bids[i], projectId, contractorId);
        if i > 0 {
          assert rest[i - 1] == bids[i];
        }
      }
    }
  }

  /** The bid rules for a well-formed homeowner/contractor pair whose
      query succeeds. */
  predicate Reaches(projectId: Value, senderId: string, recipientId: string, db: Db) {
    && Truthy(projectId)
    && db.Client? && !db.queriesFail
    && IsContractor(senderId) != IsContractor(recipientId)
    && HomeownerParty(senderId, recipientId) != ""
  }

  /** An accepted bid for the pair allows, whatever other bids exist and
      whichever side sends. */
  lemma AcceptedBidAllows(projectId: Value, senderId: string, recipientId: string, db: Db)
    requires Reaches(projectId, senderId, recipientId, db)
    requires HasBidWithStatus(db.bids, projectId, ContractorParty(senderId, recipientId), "accepted")
    ensures ShouldAllow(projectId, senderId, recipientId, db) == Allow(BidAccepted)
  {
  }

  /** Without an accepted bid, a pending one allows. */
  lemma PendingBidAllows(projectId: Value, senderId: string, recipientId: string, db: Db)
    requires Reaches(projectId, senderId, recipientId, db)
    requires !HasBidWithStatus(db.bids, projectId, ContractorParty(senderId, recipientId), "accepted")
    requires HasBidWithStatus(db.bids, projectId, ContractorParty(senderId, recipientId), "pending")
    ensures ShouldAllow(projectId, senderId, recipientId, db) == Allow(BidPending)
  {
  }

  /** With neither an accepted nor a pending bid, only a contractor's first
      contact on a project with no bids at all gets through. */
  lemma NoQualifyingBid(projectId: Value, senderId: string, recipientId: string, db: Db)
    requires Reaches(projectId, senderId, recipientId, db)
    requires !HasBidWithStatus(db.bids, projectId, ContractorParty(senderId, recipientId), "accepted")
    requires !HasBidWithStatus(db.bids, projectId, ContractorParty(senderId, recipientId), "pending")
    ensures IsContractor(senderId) && !HasBid(db.bids, projectId, senderId) ==>
      ShouldAllow(projectId, senderId, recipientId, db) == Allow(InitialContact)
    ensures !IsContractor(senderId) || HasBid(db.bids, projectId, senderId) ==>
      ShouldAllow(projectId, senderId, recipientId, db) == Deny(NoRelationship)
  {
  }

  /** The follow-up rule never fires: prior contact is fixed to False. */
  lemma FollowUpUnreachable(projectId: Value, senderId: string, recipientId: string, db: Db)
    ensures ShouldAllow(projectId, senderId, recipientId, db) != Allow(FollowUp)
  {
    var v := ShouldAllow(projectId, senderId, recipientId, db);
    if v.allowed {
      assert |v.reason| != |Allow(FollowUp).reason|;
    }
  }

  /** The whole decision in one statement: the exact conditions under which
      a message is allowed. */
  lemma AllowedExactlyWhen(projectId: Value, senderId: string, recipientId: string, db: Db)
    ensures ShouldAllow(projectId, senderId, recipientId, db).allowed <==>
      && Reaches(projectId, senderId, recipientId, db)
      && var c := ContractorParty(senderId, recipientId);
         || HasBidWithStatus(db.bids, projectId, c, "accepted")
         || HasBidWithStatus(db.bids, projectId, c, "pending")
         || (IsContractor(senderId) && !HasBid(db.bids, projectId, c))
  {
  }

  // ---------------------------------------------------------------------
  // Endpoint lookup

  const EndpointSuffix := "_ENDPOINT"

  /** The environment variable consulted for an agent's endpoint: the id
      upper-cased, hyphens turned into underscores, then "_ENDPOINT". */
  function EnvVarName(agentId: string): (name: string)
    ensures |name| == |agentId| + |EndpointSuffix|
    ensures name[|agentId|..] == EndpointSuffix
    ensures forall i :: 0 <= i < |agentId| ==>
      name[i] == if agentId[i] == '-' then '_' else UpperChar(agentId[i])
    ensures forall i :: 0 <= i < |name| ==> name[i] != '-'
  {
    ReplaceChar(Upper(agentId), '-', '_') + EndpointSuffix
  }

  /** The endpoint the environment holds for an agent ("" when unset). */
  function EnvEndpoint(env: Env, agentId: string): string {
    GetEnvOr(env, EnvVarName(agentId), "")
  }

  /** `_get_recipient_agent_info`: a non-empty environment entry wins;
      otherwise only the two example agents resolve, to fixed local URLs. */
  function RecipientInfo(agentId: string, env: Env): (info: Option<AgentInfo>)
    ensures info.Some? ==> info.value.id == agentId
    ensures info.Some? <==>
      EnvEndpoint(env, agentId) != "" || agentId == "homeowner-agent-001" || agentId == "contractor-agent-001"
    ensures EnvEndpoint(env, agentId) != "" ==>
      info == Some(AgentInfo(agentId, "Agent " + agentId, EnvEndpoint(env, agentId)))
    ensures EnvEndpoint(env, agentId) == "" && agentId == "homeowner-agent-001" ==>
      info == Some(AgentInfo(agentId, "Homeowner Agent", "http://localhost:8001"))
    ensures EnvEndpoint(env, agentId) == "" && agentId == "contractor-agent-001" ==>
      info == Some(AgentInfo(agentId, "Contractor Agent", "http://localhost:8003"))
  {
    var name := EnvVarName(agentId);
    if name in env && env[name] != "" then Some(AgentInfo(agentId, "Agent " + agentId, env[name]))
    else if agentId == "homeowner-agent-001" then Some(AgentInfo(agentId, "Homeowner Agent", "http://localhost:8001"))
    else if agentId == "contractor-agent-001" then Some(AgentInfo(agentId, "Contractor Agent", "http://localhost:8003"))
    else None
  }

  // ---------------------------------------------------------------------
  // Forwarding one message

  /** What `handle_message` did. */
  datatype Handling =
    | NoDatabaseClient                          // returned before any check
    | Blocked(reason: string)                   // the gate denied
    | NoRoute                                   // allowed, recipient endpoint unknown
    | Forwarded(send: Send, outcome: SendOutcome) // the one send made

  /** `handle_message`: consult the gate with the metadata's project id,
      and on allow forward the message unchanged to the recipient. */
  function HandleMessage(m: Message, db: Db, env: Env, transport: Send -> SendOutcome): (h: Handling)
    ensures h.NoDatabaseClient? <==> db.NoClient?
    ensures h.Forwarded? <==>
      && db.Client?
      && ShouldAllow(MetaGet(m.metadata, "project_id"), m.senderId, m.recipientId, db).allowed
      && RecipientInfo(m.recipientId, env).Some?
    ensures h.Forwarded? ==>
      && Some(h.send.target) == RecipientInfo(m.recipientId, env)
      && h.send.target.id == m.recipientId
      && h.send.taskId == m.taskId
      && h.send.role == m.role
      && h.send.content == m.content
      && h.send.senderId == m.senderId
      && h.send.sessionId == m.sessionId
      && h.send.artifacts == m.artifacts
      && h.send.metadata == m.metadata
      && h.outcome == transport(h.send)
    ensures h.Blocked? <==>
      db.Client? && !ShouldAllow(MetaGet(m.metadata, "project_id"), m.senderId, m.recipientId, db).allowed
    ensures h.Blocked? ==>
      && h.reason == ShouldAllow(MetaGet(m.metadata, "project_id"), m.senderId, m.recipientId, db).reason
      && BlockedTag <= h.reason
    ensures h.NoRoute? <==>
      && db.Client?
      && ShouldAllow(MetaGet(m.metadata, "project_id"), m.senderId, m.recipientId, db).allowed
      && RecipientInfo(m.recipientId, env).None?
  {
    if db.NoClient? then NoDatabaseClient
    else
      var projectId := MetaGet(m.metadata, "project_id");
      var verdict := ShouldAllow(projectId, m.senderId, m.recipientId, db);
      if !verdict.allowed then Blocked(verdict.reason)
      else
        var modifiedContent := m.content;
        match RecipientInfo(m.recipientId, env)
        case None => NoRoute
        case Some(target) =>
          var send := Send(target, m.taskId, m.role, modifiedContent, m.senderId,
                           m.sessionId, m.artifacts, m.metadata);
          Forwarded(send, transport(send))
  }

  // ---------------------------------------------------------------------
  // Broadcast

  /** The placeholder mapping from a bidder's user id to its agent id. */
  function BroadcastAgentId(contractorId: string): string {
    "contractor-agent-" + Prefix(contractorId, 8)
  }

  /** The send made to one resolved bidder. */
  function BroadcastSend(target: AgentInfo, projectId: Value, senderId: string, content: Value): Send {
    Send(target, "broadcast_" + PyStr(projectId), "SYSTEM", content, senderId, Null, Null,
         Some(map["broadcast" := Bool(true), "project_id" := projectId]))
  }

  /** `contractor_id` appears on some bid row of the project. */
  predicate IsBidder(bids: seq<BidRow>, projectId: Value, contractorId: string) {
    exists i | 0 <= i < |bids| :: Str(bids[i].projectId) == projectId && bids[i].contractorId == contractorId
  }

  /** The bidder's derived agent id has an endpoint. */
  predicate Resolves(contractorId: string, env: Env) {
    RecipientInfo(BroadcastAgentId(contractorId), env).Some?
  }

  /** One fan-out step: which bidder, the send made, the transport's answer. */
  datatype Attempt = Attempt(bidder: string, send: Send, outcome: SendOutcome)

  /** A well-formed attempt for one bidder of a broadcast: the send goes to
      the endpoint of "contractor-agent-" plus the first eight characters
      of the bidder's id, with task id "broadcast_<project>", role
      "SYSTEM", the broadcast content, the original sender, no session or
      artifacts, and metadata `{broadcast: True, project_id}`; its outcome
      is the transport's answer to that send. */
  predicate IsBroadcastAttempt(a: Attempt, projectId: Value, senderId: string, content: Value,
                               env: Env, transport: Send -> SendOutcome) {
    && a.send.target.id == "contractor-agent-" + Prefix(a.bidder, 8)
    && RecipientInfo(a.send.target.id, env) == Some(a.send.target)
    && a.send.taskId == "broadcast_" + PyStr(projectId)
    && a.send.role == "SYSTEM"
    && a.send.content == content
    && a.send.senderId == senderId
    && a.send.sessionId == Null && a.send.artifacts == Null
    && a.send.metadata == Some(map["broadcast" := Bool(true), "project_id" := projectId])
    && a.outcome == transport(a.send)
  }

  /** The attempt for one bidder: look up its derived agent id and, when
      that resolves, send the broadcast there. */
  function BroadcastAttempt(bidder: string, projectId: Value, senderId: string, content: Value,
                            env: Env, transport: Send -> SendOutcome): (a: Option<Attempt>)
    ensures a.Some? <==> Resolves(bidder, env)
    ensures a.Some? ==>
      a.value.bidder == bidder && IsBroadcastAttempt(a.value, projectId, senderId, content, env, transport)
  {
    match RecipientInfo(BroadcastAgentId(bidder), env)
    case None => None
    case Some(target) =>
      var send := BroadcastSend(target, projectId, senderId, content);
      Some(Attempt(bidder, send, transport(send)))
  }

  /** `[bid["contractor_id"] for bid in bids_res.data]` for one project. */
  function ProjectBidders(bids: seq<BidRow>, projectId: Value): (ids: seq<string>)
    ensures forall c :: c in ids <==> IsBidder(bids, projectId, c)
  {
    if |bids| == 0 then []
    else
      var rest := ProjectBidders(bids[1..], projectId);
      assert forall c :: IsBidder(bids[1..], projectId, c) ==> IsBidder(bids, projectId, c) by {
        forall c | IsBidder(bids[1..], projectId, c) ensures IsBidder(bids, projectId, c) {
          var i :| 0 <= i < |bids[1..]| && Str(bids[1..][i].projectId) == projectId && bids[1..][i].contractorId == c;
          assert bids[i + 1] == bids[1..][i];
        }
      }
      assert forall c :: IsBidder(bids, projectId, c) && c != bids[0].contractorId ==> IsBidder(bids[1..], projectId, c) by {
        forall c | IsBidder(bids, projectId, c) && c != bids[0].contractorId ensures IsBidder(bids[1..], projectId, c) {
          var i :| 0 <= i < |bids| && Str(bids[i].projectId) == projectId && bids[i].contractorId == c;
          assert i > 0;
          assert bids[1..][i - 1] == bids[i];
        }
      }
      if Str(bids[0].projectId) == projectId then [bids[0].contractorId] + rest else rest
  }

  /** No element occurs twice. */
  predicate NoDuplicates(xs: seq<string>) {
    forall i, j | 0 <= i < j < |xs| :: xs[i] != xs[j]
  }

  /** `list(set(xs))`, in first-occurrence order (Python leaves the order
      unspecified; nothing below depends on it). */
  function Distinct(xs: seq<string>): (r: seq<string>)
    ensures forall x :: x in r <==> x in xs
    ensures NoDuplicates(r)
    ensures |r| <= |xs|
  {
    if |xs| == 0 then []
    else
      var r := Distinct(xs[..|xs| - 1]);
      var last := xs[|xs| - 1];
      assert xs == xs[..|xs| - 1] + [last];
      if last in r then r else r + [last]
  }

  /** The attempts made while walking `recipients` in order, `step`
      giving each recipient's attempt, if any. */
  function FanOut(recipients: seq<string>, step: string -> Option<Attempt>): seq<Attempt> {
    if |recipients| == 0 then []
    else
      var attempts := FanOut(recipients[..|recipients| - 1], step);
      match step(recipients[|recipients| - 1])
      case None => attempts
      case Some(a) => attempts + [a]
  }

  /** Fan-out over distinct recipients attempts each recipient that has an
      attempt exactly once, whatever earlier sends returned, and nobody else. */
  lemma {:induction false} FanOutAttemptsEachOnce(recipients: seq<string>, step: string -> Option<Attempt>)
    requires NoDuplicates(recipients)
    requires forall c :: step(c).Some? ==> step(c).value.bidder == c
    ensures var attempts := FanOut(recipients, step);
      && (forall k | 0 <= k < |attempts| ::
            attempts[k].bidder in recipients && step(attempts[k].bidder) == Some(attempts[k]))
      && (forall k, l | 0 <= k < l < |attempts| :: attempts[k].bidder != attempts[l].bidder)
      && (forall c | c in recipients ::
            step(c).Some? <==> exists k | 0 <= k < |attempts| :: attempts[k].bidder == c)
  {
    if |recipients| > 0 {
      var init := recipients[..|recipients| - 1];
      var last := recipients[|recipients| - 1];
      assert recipients == init + [last];
      assert NoDuplicates(init);
      FanOutAttemptsEachOnce(init, step);
      var prev := FanOut(init, step);
      var attempts := FanOut(recipients, step);
      assert last !in init;
      assert forall x | x in init :: x in recipients;
      assert forall k | 0 <= k < |prev| :: prev[k].bidder != last;
      if step(last).Some? {
        assert attempts == prev + [step(last).value];
        forall c | c in recipients
          ensures step(c).Some? <==> exists k | 0 <= k < |attempts| :: attempts[k].bidder == c
        {
          if c == last {
            assert attempts[|attempts| - 1].bidder == c;
          } else {
            assert c in init;
            if step(c).Some? {
              var k :| 0 <= k < |prev| && prev[k].bidder == c;
              assert attempts[k] == prev[k];
            }
            if exists k | 0 <= k < |attempts| :: attempts[k].bidder == c {
              var k :| 0 <= k < |attempts| && attempts[k].bidder == c;
              assert k < |prev| && prev[k] == attempts[k];
            }
          }
        }
      } else {
        assert attempts == prev;
      }
    }
  }

  /** The `for` loop over recipients: one step per recipient, in order,
      keeping the attempts that were made. */
  method RunFanOut(recipients: seq<string>, step: string -> Option<Attempt>) returns (attempts: seq<Attempt>)
    ensures attempts == FanOut(recipients, step)
  {
    attempts := [];
    var i := 0;
    while i < |recipients|
      invariant 0 <= i <= |recipients|
      invariant attempts == FanOut(recipients[..i], step)
    {
      assert recipients[..i + 1][..i] == recipients[..i];
      var attempt := step(recipients[i]);
      if attempt.Some? {
        attempts := attempts + [attempt.value];
      }
      i := i + 1;
    }
    assert recipients[..i] == recipients;
  }

  /** The per-recipient step of a broadcast. */
  function BroadcastStep(projectId: Value, senderId: string, content: Value, env: Env,
                         transport: Send -> SendOutcome): string -> Option<Attempt> {
    c => BroadcastAttempt(c, projectId, senderId, content, env, transport)
  }

  /** The broadcast fan-out over distinct recipients: well-formed attempts,
      one per recipient that resolves, and none for any other. */
  lemma BroadcastFanOut(recipients: seq<string>, projectId: Value, senderId: string, content: Value, env: Env,
                        transport: Send -> SendOutcome)
    requires NoDuplicates(recipients)
    ensures var attempts := FanOut(recipients, BroadcastStep(projectId, senderId, content, env, transport));
      && (forall k | 0 <= k < |attempts| ::
            attempts[k].bidder in recipients
            && IsBroadcastAttempt(attempts[k], projectId, senderId, content, env, transport))
      && (forall k, l | 0 <= k < l < |attempts| :: attempts[k].bidder != attempts[l].bidder)
      && (forall c | c in recipients ::
            Resolves(c, env) <==> exists k | 0 <= k < |attempts| :: attempts[k].bidder == c)
  {
    var step := BroadcastStep(projectId, senderId, content, env, transport);
    FanOutAttemptsEachOnce(recipients, step);
    var attempts := FanOut(recipients, step);
    forall k | 0 <= k < |attempts|
      ensures IsBroadcastAttempt(attempts[k], projectId, senderId, content, env, transport)
    {
      assert step(attempts[k].bidder) == Some(attempts[k]);
    }
    forall c | c in recipients
      ensures Resolves(c, env) <==> exists k | 0 <= k < |attempts| :: attempts[k].bidder == c
    {
      assert step(c).Some? <==> Resolves(c, env);
    }
  }

  /** `_handle_broadcast`: one send attempt per distinct bidder whose
      derived agent id resolves; a failed send does not stop the others,
      and a project without bids sends nothing. */
  method HandleBroadcast(projectId: Value, senderId: string, content: Value, db: Db, env: Env,
                         transport: Send -> SendOutcome)
    returns (attempts: seq<Attempt>)
    ensures db.NoClient? || db.queriesFail ==> attempts == []
    ensures forall k | 0 <= k < |attempts| ::
      db.Client? && IsBidder(db.bids, projectId, attempts[k].bidder)
      && IsBroadcastAttempt(attempts[k], projectId, senderId, content, env, transport)
    ensures forall k, l | 0 <= k < l < |attempts| :: attempts[k].bidder != attempts[l].bidder
    ensures db.Client? && !db.queriesFail ==> forall c | IsBidder(db.bids, projectId, c) ::
      Resolves(c, env) <==> exists k | 0 <= k < |attempts| :: attempts[k].bidder == c
  {
    attempts := [];
    if db.NoClient? || db.queriesFail {
      return;
    }
    var rows := ProjectBidders(db.bids, projectId);
    if |rows| == 0 {
      return;
    }
    var recipients := Distinct(rows);
    attempts := RunFanOut(recipients, BroadcastStep(projectId, senderId, content, env, transport));
    BroadcastFanOut(recipients, projectId, senderId, content, env, transport);
    assert forall c :: c in recipients <==> IsBidder(db.bids, projectId, c);
  }

  /** The metadata asks for a broadcast and names a project, some content
      and a creator, all truthy. */
  predicate BroadcastReady(task: Task) {
    && MetaGet(task.metadata, "action") == Str("broadcast")
    && Truthy(MetaGet(task.metadata, "project_id"))
    && Truthy(MetaGet(task.metadata, "content"))
    && task.creatorAgentId.Some? && task.creatorAgentId.value != ""
  }

  /** `handle_create_task`: only a complete broadcast request fans out, from
      the task's creator, with the metadata's content. */
  method HandleCreateTask(task: Task, db: Db, env: Env, transport: Send -> SendOutcome)
    returns (attempts: seq<Attempt>)
    ensures !BroadcastReady(task) || db.NoClient? || db.queriesFail ==> attempts == []
    ensures forall k | 0 <= k < |attempts| ::
      BroadcastReady(task) && db.Client? && !db.queriesFail
      && IsBidder(db.bids, MetaGet(task.metadata, "project_id"), attempts[k].bidder)
      && IsBroadcastAttempt(attempts[k], MetaGet(task.metadata, "project_id"), task.creatorAgentId.value,
                            MetaGet(task.metadata, "content"), env, transport)
    ensures forall k, l | 0 <= k < l < |attempts| :: attempts[k].bidder != attempts[l].bidder
    ensures BroadcastReady(task) && db.Client? && !db.queriesFail ==>
      forall c | IsBidder(db.bids, MetaGet(task.metadata, "project_id"), c) ::
        Resolves(c, env) <==> exists k | 0 <= k < |attempts| :: attempts[k].bidder == c
  {
    attempts := [];
    if MetaGet(task.metadata, "action") == Str("broadcast") {
      var projectId := MetaGet(task.metadata, "project_id");
      var content := MetaGet(task.metadata, "content");
      if Truthy(projectId) && Truthy(content) && task.creatorAgentId.Some? && task.creatorAgentId.value != "" {
        attempts := HandleBroadcast(projectId, task.creatorAgentId.value, content, db, env, transport);
      }
    }
  }

  /** Every broadcast target is classified as a contractor by the gate. */
  lemma BroadcastTargetsAreContractors(contractorId: string)
    ensures IsContractor(BroadcastAgentId(contractorId))
  {
    ContainsOwnPrefix(ContractorMarker, "-" + Prefix(contractorId, 8));
    assert BroadcastAgentId(contractorId) == ContractorMarker + ("-" + Prefix(contractorId, 8));
  }

  /** Without an environment entry, the only bidder whose derived agent id
      resolves is the one whose user id is exactly "001". */
  lemma BroadcastFallbackResolves(contractorId: string, env: Env)
    requires EnvEndpoint(env, BroadcastAgentId(contractorId)) == ""
    ensures Resolves(contractorId, env) <==> contractorId == "001"
  {
    var id := BroadcastAgentId(contractorId);
    assert id[0] == 'c';
    assert id != "homeowner-agent-001";
    if id == "contractor-agent-001" {
      assert Prefix(contractorId, 8) == id[17..];
      assert contractorId == "001";
    }
  }
}

=== FILE: protocol.dfy ===
/** The agent-to-agent (A2A) vocabulary the agents exchange, reduced to the
    fields the modelled operations read or write, and the outside world they
    consult: process environment variables and database responses. */
module Protocol {
  import opened Values

  /** An agent card: who an agent is and where it listens. */
  datatype AgentInfo = AgentInfo(id: string, name: string, endpoint: string)

  /** A unit of work handed to an agent. */
  datatype Task = Task(
    id: string,
    description: string,
    metadata: Option<Record>,
    creatorAgentId: Option<string>)

  /** A message between agents, as received by the messaging agent. */
  datatype Message = Message(
    id: string,
    taskId: string,
    role: string,
    content: Value,
    senderId: string,
    recipientId: string,
    sessionId: Value,
    artifacts: Value,
    metadata: Option<Record>)

  /** One call of the A2A client's `send_message`: the target agent and the
      arguments passed. Arguments left to the client's defaults are `Null`. */
  datatype Send = Send(
    target: AgentInfo,
    taskId: string,
    role: string,
    content: Value,
    senderId: string,
    sessionId: Value,
    artifacts: Value,
    metadata: Option<Record>)

  /** What the transport did with one send: reported success, reported
      failure, or an exception. The agents only log it. */
  datatype SendOutcome = Delivered | Refused | Raised

  /** Process environment variables. */
  type Env = map<string, string>

  /** `os.getenv(name, default)`: the default applies only to unset
      variables; a variable set to the empty string yields "". */
  function GetEnvOr(env: Env, name: string, default: string): string {
    if name in env then env[name] else default
  }

  /** `task.metadata.get(key) if task.metadata else None` */
  function MetaGet(metadata: Option<Record>, key: string): Value {
    match metadata
    case None => Null
    case Some(m) => if |m| == 0 then Null else Get(m, key, Null)
  }

  /** Outcome of one insert or select: the returned rows (a missing `data`
      is the empty list), or an exception from the client. */
  datatype Response = Rows(rows: seq<Record>) | Failed
}

=== FILE: values.dfy ===
/** Python values as the agents handle them: task metadata, message payloads,
    database rows and the records the agents build for insertion.
    The helpers here are the few Python built-ins those agents rely on:
    truthiness, `dict.get`, the "drop None values" comprehension, `str()`,
    the substring test `sub in s`, and ASCII upper/lower case. */
module Values {

  datatype Option<+T> = None | Some(value: T)

  /** A Python value. `Null` is Python's None. `Other` stands for every
      scalar the agents never inspect (floats, timestamps, UUID objects);
      it carries the text `str()` renders for it. */
  datatype Value =
    | Null
    | Bool(b: bool)
    | Int(i: int)
    | Str(s: string)
    | List(items: seq<Value>)
    | Dict(fields: map<string, Value>)
    | Other(text: string)

  /** A Python dict with string keys. */
  type Record = map<string, Value>

  /** Python truthiness, as used by `if v:` and `if not v:`. */
  predicate Truthy(v: Value) {
    match v
    case Null => false
    case Bool(b) => b
    case Int(i) => i != 0
    case Str(s) => |s| > 0
    case List(items) => |items| > 0
    case Dict(fields) => |fields| > 0
    case Other(_) => true
  }

  /** `d.get(key, default)` */
  function Get(d: Record, key: string, default: Value): Value {
    if key in d then d[key] else default
  }

  /** `{k: v for k, v in d.items() if v is not None}` */
  function DropNone(d: Record): (r: Record)
    ensures r.Keys <= d.Keys
    ensures forall k :: k in r ==> r[k] == d[k] && !r[k].Null?
    ensures forall k :: k in d && !d[k].Null? ==> k in r
  {
    map k | k in d && !d[k].Null? :: d[k]
  }

  function DigitChar(d: nat): char
    requires d < 10
  {
    "0123456789"[d]
  }

  /** Decimal digits of a natural number, most significant first. */
  function NatToString(n: nat): (s: string)
    ensures |s| >= 1
    ensures forall i :: 0 <= i < |s| ==> '0' <= s[i] <= '9'
    decreases n
  {
    if n < 10 then [DigitChar(n)] else NatToString(n / 10) + [DigitChar(n % 10)]
  }

  /** `str(i)` for a Python int */
  function IntToString(i: int): string {
    if i < 0 then "-" + NatToString(-i) else NatToString(i)
  }

  /** `str(v)`. Container values are rendered by placeholders; the model's
      dicts keep no insertion order, so their text cannot be reproduced. */
  function PyStr(v: Value): string {
    match v
    case Null => "None"
    case Bool(b) => if b then "True" else "False"
    case Int(i) => IntToString(i)
    case Str(s) => s
    case List(_) => "[...]"
    case Dict(_) => "{...}"
    case Other(text) => text
  }

  /** `s[:n]` for a non-negative bound. */
  function Prefix(s: string, n: nat): (r: string)
    ensures |r| == if |s| <= n then |s| else n
    ensures r <= s
  {
    if |s| <= n then s else s[..n]
  }

  /** `sub` occurs in `s` starting at index `i`. */
  predicate OccursAt(s: string, sub: string, i: int) {
    0 <= i && i + |sub| <= |s| && s[i..i + |sub|] == sub
  }

  /** Python's `sub in s` on strings. */
  predicate Contains(s: string, sub: string) {
    exists i | 0 <= i <= |s| :: OccursAt(s, sub, i)
  }

  /** A string contains each of its own prefixes. */
  lemma ContainsOwnPrefix(sub: string, rest: string)
    ensures Contains(sub + rest, sub)
  {
    assert OccursAt(sub + rest, sub, 0);
  }

  /** Prepending a string that lacks the first character of `sub` neither
      creates nor hides an occurrence of `sub`. */
  lemma {:induction false} ContainsAfterPrefix(p: string, u: string, sub: string)
    requires |sub| > 0 && sub[0] !in p
    ensures Contains(p + u, sub) <==> Contains(u, sub)
  {
    var s := p + u;
    if Contains(u, sub) {
      var j :| 0 <= j <= |u| && OccursAt(u, sub, j);
      assert s[|p| + j..|p| + j + |sub|] == u[j..j + |sub|];
      assert OccursAt(s, sub, |p| + j);
    }
    if Contains(s, sub) {
      var i :| 0 <= i <= |s| && OccursAt(s, sub, i);
      if i < |p| {
        assert false;
      }
      assert u[i - |p|..i - |p| + |sub|] == s[i..i + |sub|];
      assert OccursAt(u, sub, i - |p|);
    }
  }

  function UpperChar(c: char): char {
    if 'a' <= c <= 'z' then (c as int - 32) as char else c
  }

  function LowerChar(c: char): char {
    if 'A' <= c <= 'Z' then (c as int + 32) as char else c
  }

  /** `s.upper()` on ASCII text */
  function Upper(s: string): (r: string)
    ensures |r| == |s|
    ensures forall i :: 0 <= i < |s| ==> r[i] == UpperChar(s[i])
  {
    if |s| == 0 then [] else [UpperChar(s[0])] + Upper(s[1..])
  }

  /** `s.lower()` on ASCII text */
  function Lower(s: string): (r: string)
    ensures |r| == |s|
    ensures forall i :: 0 <= i < |s| ==> r[i] == LowerChar(s[i])
  {
    if |s| == 0 then [] else [LowerChar(s[0])] + Lower(s[1..])
  }

  /** `s.replace(a, b)` for single characters */
  function ReplaceChar(s: string, a: char, b: char): (r: string)
    ensures |r| == |s|
    ensures forall i :: 0 <= i < |s| ==> r[i] == if s[i] == a then b else s[i]
  {
    if |s| == 0 then [] else [if s[0] == a then b else s[0]] + ReplaceChar(s[1..], a, b)
  }

  /** `s.capitalize()` on ASCII text */
  function Capitalize(s: string): string {
    if |s| == 0 then [] else [UpperChar(s[0])] + Lower(s[1..])
  }

  /** `f"{n:03d}"` for a natural number */
  function ZeroPad3(n: nat): string {
    var digits := NatToString(n);
    if |digits| >= 3 then digits else seq(3 - |digits|, _ => '0') + digits
  }

  /** A single digit is padded with two zeros. */
  lemma ZeroPad3Digit(n: nat)
    requires 1 <= n < 10
    ensures ZeroPad3(n) == "00" + [DigitChar(n)]
  {
  }
}
